=== FILE: README.md ===
# storage-stream core, in Dafny

This project models the three stream classes of the `crysalead/storage-stream` PHP library and proves
what they promise.

- **`Stream`** (module `Streams`) is one stream over an in-memory buffer that stands for `php://temp`.
  Its state is:
  - the buffer's bytes and the file pointer;
  - whether the resource is still open, and whether it is readable, writable and seekable;
  - the `start`/`limit` window the class layers on the resource;
  - the mime and the default buffer size.

  `read`, `getLine`, `write`, `push`, `seek`, `rewind`, `end`, `size`, `flush`, `__toString` and
  `close` are methods that change this state. Each is proved against functions of the state, such as
  the chunk a read returns, where a seek lands, the view of the window and what is left to read.
  `range()` parsing and formatting is proved to round-trip.
- **`MultiStream`** (module `MultiStreams`) presents several readable streams as one. It holds:
  - its parts, in order, as values (`PartState`: buffer, pointer, window, seekable);
  - the index of the current part and the number of bytes returned (`tell()`);
  - the sticky seekable flag and the keep-last insertion mode.

  The loops of `read`, `seek` (rewind every part, then read forward) and `flush` are `while` loops,
  each proved equal to a recursive function of the parts. Lemmas about those functions prove the
  following:
  - with no '0' byte left, a read hands out the next bytes of what the container has left; when the
    parts have no limit it never hands out more than requested;
  - `tell()` counts the bytes returned;
  - without limits and with no '0' byte, seeking to `k` makes `tell()` = `k`, with the concatenation
    from `k` left to read;
  - `flush()` ends, and with no '0' byte left it returns everything that was left;
  - `length()` is the sum of the parts' sizes, which is the length of the concatenation.

  The scenario of the library's own test (parts "foo", "bar", "baz" read three bytes at a time) is
  proved as a method.
- **`MultipartStream`** (module `Multipart`) builds a multipart body. It follows the delimiter syntax
  of section 5.1.1 of RFC 2046 and the `form-data` disposition of section 4.2 of RFC 7578.
  - The constructor adds the close delimiter.
  - Each `add` assembles the header lines and adds four parts: the delimiter line, the header block,
    the payload and a CR LF.
  - The header text is a set of pure functions. A reader for delimiter and header lines is defined
    separately, and each frame is proved to read back through it into its parts.
  - With the close delimiter kept last, the body serialises to the fields' frames followed by
    `--B--` CR LF.

  The PHP class extends `MultiStream`; here the builder holds its container as the field `body`.

Modules `Wrappers` (Option, Result, the library's exceptions) and `Text` (PHP truthiness of strings,
decimal printing and parsing, `join`) hold shared definitions.

PHP's integers are unbounded here. No operation of the core depends on their width.

Where the code and its documentation differ, the model follows the code:
- `MultipartStream` sets `_keepLast` to true, but the parent constructor overwrites it with the
  configured value, `false` by default. So `keepLast` is a constructor parameter, and the framing
  lemma is stated for both modes.
- `MultiStream` calls `isReadable`, `isSeekable` and `length` on its parts, while `Stream` names them
  `readable()`, `seekable()` and `size()` and has no `length`. The model gives `Stream` a `Length`
  that is the size when the stream is seekable and null otherwise.

## Model

| member | source | states |
|---|---|---|
| Streams.SeekTarget | src/Stream.php:483-488 | a `SEEK_SET` target inside the buffer is where the pointer lands; any target lands inside the buffer |
| Streams.NewPosition | src/Stream.php:474-488 | the pointer after `fseek` stays inside the buffer; `SEEK_SET` lands on an offset inside the buffer, `SEEK_CUR` on the current position plus the offset, `SEEK_END` on the end plus a non-positive offset, whenever that lies inside the buffer |
| Streams.OverwritePlacesData | src/Stream.php:392-401 | `fwrite` at the pointer keeps the bytes before it, puts the data there, keeps the bytes after it, and grows the buffer to the larger of its size and pointer plus data |
| Streams.Written | src/Stream.php:392-401 | `fwrite($s, $length)` writes the first `min($length, |$s|)` bytes of the string, none for a length that is not positive, the whole string without a length |
| Streams.ReadWithoutLimit | src/Stream.php:336-364 | without a limit a read returns the next `min(n, bytes left)` bytes from the pointer |
| Streams.ReadUnderLimit | src/Stream.php:353-364 | under a limit the requested length is ignored: a read stops at `start + limit` and, when that lies ahead inside the buffer, returns exactly the bytes up to it |
| Streams.ChunkInView | src/Stream.php:336-364 | read from within the window, a chunk is the next slice of the view, does not pass the view's end, and is empty only at that end |
| Streams.ReadTakesRest | src/Stream.php:336-364 | a chunk is a prefix of what the stream has left, what is left afterwards is the remainder, and an empty chunk of a positive or limited read means nothing is left |
| Streams.EofLeavesNothing | src/Stream.php:559-568 | at `eof()` nothing is left to read |
| Streams.NothingLeftAtEof | src/Stream.php:559-568 | when the range ends inside the buffer, nothing left to read means `eof()` |
| Streams.RestFromStart | src/Stream.php:495-498 | after `rewind()` what is left is the stream's view |
| Streams.EofAtViewEnd | src/Stream.php:559-568 | within the window, `eof()` means the pointer is at the view's end, and conversely for a range inside the buffer |
| Streams.SizeIsViewLength | src/Stream.php:539-552 | for a range that does not end before it starts, `size()` is the length of the view |
| Streams.ReadConsumesRem | src/Stream.php:336-364 | a read never increases the bytes left before `eof()`; before `eof()` on a bounded range it returns at least one byte and consumes exactly that many |
| Streams.DashAt | src/Stream.php:185 | the index found is the first `-` of the string, or its length |
| Streams.RangeRoundTrip | src/Stream.php:182-190 | `range("a-b")` sets start `a` and limit `b - a`, `range("a-")` a null limit, and the returned string is the argument again, except that `a-a` comes back as `a-` |
| Streams.DashAfterDigits | src/Stream.php:185-187 | in "digits-rest", `explode('-')` splits after the digits |
| Streams.FindFrom | src/Stream.php:380 | the first occurrence of the line ending at or after an index, or none when it does not occur |
| Streams.LineStopsAtEnding | src/Stream.php:373-382 | `stream_get_line` returns the text before the first ending within the requested window, consumes the ending too, and returns the whole window when there is no ending |
| Streams.ResolveMime | src/Stream.php:99-127 | a string mime is kept; false/null gives `application/octet-stream`; detection gives the detected type for a readable, seekable stream with bytes left, and the default for any other |
| Streams.Stream.constructor | src/Stream.php:56-86 | a fresh read/write resource holding the data ("" and "0" leave it empty), the start, limit, buffer size and resolved mime; a positive start rewinds to it |
| Streams.FopenModes | src/Stream.php:247-276 | `r` is readable only, `w` and `a` writable only, and each with '+' is both, so the `r+` of a fresh buffer reads and writes |
| Streams.Stream.Attach | src/Stream.php:67-82 | a stream over a given resource keeps its bytes and pointer; readable and writable follow its mode; the window, buffer size and the mime resolved at the pointer are stored |
| Streams.Stream.FromHandle | src/Stream.php:56-86 | as `Attach`, then a positive start rewinds to it; a resource that cannot seek makes the constructor throw the seek error, exactly when the start is positive |
| Streams.Stream.ReadError | src/Stream.php:256-265 | reading is refused exactly when the stream is closed or not readable, with the closed message or the non-readable message naming the mode |
| Streams.Stream.WriteError | src/Stream.php:281-290 | writing is refused exactly when the stream is closed or not writable, with the closed message or the non-writable message naming the mode |
| Streams.Stream.SeekError | src/Stream.php:305-313 | seeking is refused exactly when the stream is closed or not seekable |
| Streams.Stream.IsReadable | src/Stream.php:247-251 | the readable mode of an open stream; a closed one fails |
| Streams.Stream.IsWritable | src/Stream.php:272-276 | the writable mode of an open stream; a closed one fails |
| Streams.Stream.IsSeekable | src/Stream.php:297-300 | the seekable mode of an open stream; a closed one fails |
| Streams.Stream.Offset | src/Stream.php:469-472 | the file pointer of an open stream |
| Streams.Stream.SetStart | src/Stream.php:148-160 | stores the start, and with autoseek rewinds to it or fails with the seek error |
| Streams.Stream.SetLimit | src/Stream.php:168-174 | stores and returns the limit |
| Streams.Stream.Range | src/Stream.php:182-190 | with an argument sets start and limit from "start-end"; always returns the range formatted from the new state; without an argument changes nothing |
| Streams.Stream.SetMime | src/Stream.php:198-204 | stores the resolved mime; detection on a closed stream fails |
| Streams.Stream.BufferSize | src/Stream.php:321-327 | null reads the buffer size, any other value sets it; the result is the new buffer size |
| Streams.Stream.Read | src/Stream.php:336-345 | a closed or unreadable stream fails and keeps its pointer; otherwise returns the chunk at the pointer of the length `_bufferSize` gives, and moves past it |
| Streams.Stream.GetLine | src/Stream.php:373-382 | the same guard; otherwise returns the line at the pointer and moves past it and its ending |
| Streams.OverwriteAtEnd | src/Stream.php:392-401 | `fwrite` at the end of the buffer appends the data |
| Streams.Stream.Write | src/Stream.php:392-401 | a closed or read-only stream fails unchanged; otherwise the buffer is overwritten at the pointer, or appended to for a resource opened in `a` mode, the pointer moves past the data, and the count is returned |
| Streams.Stream.Push | src/Stream.php:411-422 | writes like `write`, appending in `a` mode; a seekable stream keeps its pointer; a non-seekable one fails on the seek back |
| Streams.Stream.Seek | src/Stream.php:483-488 | the seek guard, else the pointer lands where `fseek` puts it and is returned |
| Streams.Stream.Rewind | src/Stream.php:495-498 | moves to `start` (when inside the buffer) and returns it |
| Streams.Stream.End | src/Stream.php:515-522 | moves to `start + limit` under a limit, to the end of the buffer without one |
| Streams.Stream.Eof | src/Stream.php:559-568 | the read guard, else under a limit `eof()` holds exactly when the pointer has reached `start + limit` |
| Streams.Stream.Size | src/Stream.php:539-552 | -1 when not seekable; otherwise `end()` minus `rewind()`, the length of the view for an ordered range; the pointer is put back |
| Streams.Stream.Length | src/MultiStream.php:275-280 | the size of a seekable stream, null for any other; the pointer is put back |
| Streams.Stream.Flush | src/Stream.php:442-446 | the read guard, else everything from the pointer to the end of the buffer, leaving the pointer there |
| Streams.Stream.ToString | src/Stream.php:575-583 | the bytes from the pointer on; a seekable stream keeps its pointer, any other is drained |
| Streams.Stream.Close | src/Stream.php:588-597 | false when already closed, true otherwise; the stream is closed afterwards, so reads, writes and seeks fail |
| Text.NatToStringIsNumeral | src/Stream.php:189 | PHP's decimal rendering of an integer has no sign and no leading zero |
| Text.ParsePrinted | src/Stream.php:186-187 | `(integer)` of a printed number gives the number back |
| Text.PrintParsed | src/Stream.php:186-189 | printing the value of a numeral gives the numeral back |
| Text.JoinWithCons | src/MultipartStream.php:107 | `join` of two or more lines is the first line, the separator, then the join of the rest |
| Text.JoinWithPair | src/MultipartStream.php:95-100 | `join` of two items puts the separator between them |
| Text.JoinWithTriple | src/MultipartStream.php:95-100 | `join` of three items puts the separator between consecutive ones |
| MultiStreams.InsertPlacement | src/MultiStream.php:149-155 | the new part goes before the last part in keep-last mode, else at the end; every other part keeps its relative order; the last part stays last in keep-last mode |
| MultiStreams.InsertKeeps | src/MultiStream.php:144-155 | insertion keeps every pointer valid and the current index valid; every part seekable afterwards exactly when it was so before and the new part is seekable |
| MultiStreams.ConcatLayout | src/MultiStream.php:182-198 | moving the parts' pointers does not change the container's content |
| MultiStreams.SizeSumLayout | src/MultiStream.php:271-283 | moving the parts' pointers does not change the sum of their sizes |
| MultiStreams.LayoutFacts | src/MultiStream.php:182-198 | moving the pointers keeps the content, the limits, the ranges, the length and the seekability |
| MultiStreams.LengthIsConcatLength | src/MultiStream.php:271-283 | with every part seekable and every range ordered, `length()` is the length of the concatenation |
| MultiStreams.RewoundAll | src/MultiStream.php:182-190 | after every part is rewound and the first is current, `tell()` = 0 is accurate and the whole content is left to read |
| MultiStreams.EofDrained | src/MultiStream.php:290-293 | at `eof()` the container has nothing left to give |
| MultiStreams.ReadParts | src/MultiStream.php:218-249 | the `while ($remaining > 0)` loop computes the read function of the parts |
| MultiStreams.ReadLoopShape | src/MultiStream.php:225-245 | a read moves pointers only, and only up to the part it ends on; the current index only grows |
| MultiStreams.ReadLoopBound | src/MultiStream.php:225-245 | without limits a read gathers no more than requested |
| MultiStreams.ReadLoopHands | src/MultiStream.php:225-245 | with no '0' byte left, a read hands out the next bytes of what the container has left; fewer than requested only when nothing is left |
| MultiStreams.ReadLoopEof | src/MultiStream.php:225-245 | with no '0' byte left, a short read from bounded parts leaves the container at `eof()` |
| MultiStreams.ReadSkipsZeroChunk | src/MultiStream.php:225-245 | with a '0' byte a read comes back short before the end: over parts "1" and "0x", `read(2)` returns "1" while "x" is left and `eof()` does not hold |
| MultiStreams.ReadLoopMeasure | src/MultiStream.php:225-245 | a read never increases the bytes left before `eof()` |
| MultiStreams.ReadLoopDrains | src/MultiStream.php:225-245 | a positive read from bounded parts before `eof()` strictly decreases what is left |
| MultiStreams.ReadFacts | src/MultiStream.php:218-249 | what every read guarantees: pointer moves only, nothing changes for a non-positive length, no more than requested without limits, progress when draining |
| MultiStreams.ReadContents | src/MultiStream.php:218-249 | what a read returns, when no '0' byte is left: the next bytes, short only at the end, and then `eof()` for bounded parts |
| MultiStreams.RewindAll | src/MultiStream.php:184-190 | every part rewound, in place, nothing else changed |
| MultiStreams.RewindParts | src/MultiStream.php:184-190 | the `foreach` computes every part rewound |
| MultiStreams.SeekParts | src/MultiStream.php:182-198 | the rewind loop and the forward-read loop compute the seek function of the parts |
| MultiStreams.SeekLoopShape | src/MultiStream.php:193-198 | the forward reads of `seek` move pointers only |
| MultiStreams.SeekLoopTracked | src/MultiStream.php:193-198 | with no '0' byte in the content, the forward reads keep `tell()` accurate and stop at the offset or at the end of the content |
| MultiStreams.SeekStepTracked | src/MultiStream.php:194-197 | one forward read keeps `tell()` accurate; an empty one happens only at the end of the content |
| MultiStreams.SeekLoopBound | src/MultiStream.php:193-198 | without limits the forward reads do not pass the offset |
| MultiStreams.SeekFacts | src/MultiStream.php:174-199 | what a seek guarantees of the parts: pointer moves only and, when the content holds no '0' byte, accuracy of `tell()` and `tell()` = `k` for `k` within the content without limits |
| MultiStreams.SeekSkipsZeroChunk | src/MultiStream.php:193-198 | with a '0' byte the source's seek loses bytes: over parts "1" and "0x", `seek(2)` drops the false chunk "0", ends with `tell()` = 2 and nothing left, though the content from offset 2 is "x" |
| MultiStreams.FlushLoop | src/MultiStream.php:300-307 | the reads of `flush()` end at `eof()` |
| MultiStreams.FlushParts | src/MultiStream.php:300-307 | the `while (!eof())` loop computes the flush function, ending because each read shrinks what is left |
| MultiStreams.FlushLoopShape | src/MultiStream.php:303-305 | flushing moves pointers only |
| MultiStreams.FlushLoopDrains | src/MultiStream.php:303-305 | with no '0' byte left, flushing returns everything that was left and leaves nothing |
| MultiStreams.FlushFacts | src/MultiStream.php:300-307 | what a flush guarantees of the parts |
| MultiStreams.MultiStream.constructor | src/MultiStream.php:63-72 | an empty, seekable container with the given buffer size and keep-last mode, at offset 0 |
| MultiStreams.MultiStream.IsReadable | src/MultiStream.php:79-82 | always readable |
| MultiStreams.MultiStream.IsWritable | src/MultiStream.php:89-92 | never writable |
| MultiStreams.MultiStream.IsSeekable | src/MultiStream.php:99-102 | a seekable container has only seekable parts |
| MultiStreams.MultiStream.Mime | src/MultiStream.php:110-113 | always throws |
| MultiStreams.MultiStream.Meta | src/MultiStream.php:122-125 | null for a truthy key, an empty array otherwise |
| MultiStreams.MultiStream.Tell | src/MultiStream.php:164-167 | the offset; when accurate, the position in the content from which the rest is still to come |
| MultiStreams.MultiStream.Write | src/MultiStream.php:259-262 | always throws |
| MultiStreams.MultiStream.Eof | src/MultiStream.php:290-293 | holds exactly when there are no parts or the last part is current and at its end; then nothing is left |
| MultiStreams.MultiStream.Add | src/MultiStream.php:134-157 | raw data is wrapped in a fresh stream; an unreadable part is refused with the parts unchanged; a non-seekable part clears the seekable flag; the part is inserted by keep-last mode; a rewound part inserted behind the current one keeps `tell()` accurate |
| MultiStreams.MultiStream.Read | src/MultiStream.php:218-249 | the parts and current index follow the read loop; `tell()` grows by the bytes returned; no more than requested without limits; with no '0' byte left, the result is the next bytes of what was left, short only at the end (then `eof()` for bounded parts) |
| MultiStreams.MultiStream.Seek | src/MultiStream.php:174-199 | refused for a non-seekable container or a whence other than `SEEK_SET`, unchanged; otherwise rewinds every part and reads forward; `tell()` = `k` with the content from `k` left when there are no limits, no '0' byte in the content and `k` is within the content |
| MultiStreams.MultiStream.Rewind | src/MultiStream.php:206-209 | a seekable container is back at offset 0 with its whole content left |
| MultiStreams.MultiStream.Length | src/MultiStream.php:271-283 | null when any part has no length, else the sum of the sizes (0 for no parts); with ordered ranges, the length of the content |
| MultiStreams.MultiStream.Flush | src/MultiStream.php:300-307 | reads until `eof()`; with no '0' byte left returns everything that was left |
| MultiStreams.MultiStream.ToString | src/MultiStream.php:314-321 | a seekable container gives its whole content, any other what was left; it ends at `eof()` |
| MultiStreams.MultiStream.Detach | src/MultiStream.php:328-338 | no parts, offset and current index 0, seekable again; twice is the same as once |
| MultiStreams.MultiStream.Close | src/MultiStream.php:343-353 | no parts, offset and current index 0, seekable again; twice is the same as once |
| MultiStreams.ThreeParts | spec/Suite/MultiStream.spec.php:136-138 | three fresh parts "foo", "bar", "baz" hold "foobarbaz", all of it left |
| MultiStreams.ReadStep | src/MultiStream.php:218-249 | a read of `|x|` bytes, with `x` next, returns `x` and moves `tell()` by `|x|` |
| MultiStreams.ReadAtEnd | src/MultiStream.php:218-249 | once nothing is left, a read returns "", `eof()` holds, `tell()` is unchanged and `toString()` still gives the whole content |
| MultiStreams.AddThreeParts | spec/Suite/MultiStream.spec.php:134-141 | adding "foo", "bar", "baz" to a new container gives a container at offset 0, not at `eof()` |
| MultiStreams.ReadThreeParts | spec/Suite/MultiStream.spec.php:132-156 | reads of 3 give "foo", "bar", "baz", then "" with `eof()` and `tell()` = 9, and `toString()` is "foobarbaz" |
| Multipart.ReadHeaderBlock | src/MultipartStream.php:107 | a header block reads back into its lines, leaving what follows |
| Multipart.HeaderLinesClean | src/MultipartStream.php:95-104 | the header lines are never empty, and hold no CR when their inputs hold none |
| Multipart.FrameReadsBack | src/MultipartStream.php:95-109 | a field's frame reads back as the delimiter line, then Content-Disposition, Content-Type and (only for a truthy length) Content-Length, then the payload and CR LF |
| Multipart.DispositionLine | src/MultipartStream.php:95-100 | the disposition line is the disposition (default `form-data`), `name="N"`, and `filename="F"` when given, joined by "; " |
| Multipart.FieldsInsert | src/MultiStream.php:149-155 | adding a part extends the fields by its view and, in keep-last mode, leaves the last part last |
| Multipart.FreshView | src/MultiStream.php:136-138 | a stream built from non-false data shows that data |
| Multipart.LayoutOf | src/MultipartStream.php:38 | framed parts concatenate to the body layout: fields then close delimiter when kept last, else close delimiter then fields |
| Multipart.FieldPartsFields | src/MultipartStream.php:106-109 | the four parts of a field extend the fields by delimiter line, header block, payload and CR LF, in that order, with the last part kept last |
| Multipart.FieldPartsFramed | src/MultipartStream.php:106-109 | adding a field to a framed body appends its frame |
| Multipart.MultipartStream.constructor | src/MultipartStream.php:30-39 | the boundary is the configured one or the generated one; the body is a new container whose only part is `--B--` CR LF, so the empty body serialises to it |
| Multipart.MultipartStream.Boundary | src/MultipartStream.php:46-49 | the stored boundary |
| Multipart.MultipartStream.Mime | src/MultipartStream.php:57-63 | without an argument, the stored mime |
| Multipart.MultipartStream.SetMime | src/MultipartStream.php:57-63 | stores the mime, or `multipart/mixed` when it is null or falsy |
| Multipart.MultipartStream.Wrap | src/MultipartStream.php:84-86 | raw data gets a fresh readable stream; a stream is taken as it is |
| Multipart.MultipartStream.HeadersFor | src/MultipartStream.php:84-104 | a missing name fails with the required-name error; the length option wins over the stream's length; the header lines follow |
| Multipart.MultipartStream.AddParts | src/MultipartStream.php:106-111 | the four parts in order; an unreadable payload stops after the first two; a framed body gains the field's frame |
| Multipart.MultipartStream.RecordFrame | src/MultipartStream.php:106-109 | the frame of a field just added joins a framed body |
| Multipart.MultipartStream.Add | src/MultipartStream.php:72-112 | refuses a missing name unchanged; otherwise the header lines from the options and the resolved length, then the four parts; a framed body gains the field's frame |
| Multipart.MultipartStream.ToString | src/MultiStream.php:314-321 | with no '0' byte in a seekable body, the serialisation is the whole body, framed or not (a refused payload leaves its delimiter and headers in it); for a framed body that is the layout: the frames then `--B--` CR LF in keep-last mode |
| Multipart.BuildOneField | src/MultipartStream.php:30-112 | a new builder with one field added holds that field's frame |

## Left out

- Resource plumbing: `fopen`, `stream_get_meta_data` (`meta`, `isLocal`), `timeout`, `pipe` and `resource()` of `Stream` are not modelled. `Stream` holds its bytes in memory.
- Streams.Stream.Eof: without a limit, `feof` is modelled as the pointer being at the end of the buffer. PHP's `feof` becomes true only after a read hits the end.
- Streams.Stream.constructor: stream resources passed as `data` are modelled separately by `FromHandle`. Floats and booleans as data are not modelled.
- Streams.ResolveMime: the mime `finfo_buffer` detects is an input (`detected`), because it is a call into a foreign library.
- Streams.SeekTarget: a `SEEK_SET` to a target outside the buffer leaves the pointer at the end of the buffer. This is the model's choice for the in-memory resource, where `fseek` refuses such a target. It decides where `rewind()`, `offset()`, `size()` and `eof()` under a limit land when `start` lies past the data.
- Streams.NewPosition: `SEEK_CUR` is modelled as a `SEEK_SET` to the current position plus the offset, and `SEEK_END` past the end lands at the end. Both are choices of the model for targets outside the buffer.
- Streams.Stream.Write: on a resource opened in `a` mode the pointer is left after the appended bytes, as a memory stream leaves it. A plain file opened to append may report another position.
- Streams.Stream.FromHandle: the resource's mode is required to be non-empty, as every opened resource's is.
- Streams.Stream.Range: the argument is required to be digits, a dash and optionally digits. PHP's `(integer)` casts of other strings are not modelled.
- Streams.Stream.Close: the destructor's close is not modelled.
- Multipart.MultipartStream.constructor: the random boundary `sha1(uniqid())` is the parameter `generated`.
- Multipart.MultipartStream.Add: the mime `Stream::getMime` resolves is the input `mimeType`, because that function is not part of this model. `add` returns a `Result` instead of the container itself. An explicitly null `disposition` option is not modelled; a missing one gives `form-data`.
- MultiStreams.MultiStream.Add: the container holds the parts as values. A caller's later changes to a stream it added are not seen by the container, and the container's reads do not move the caller's stream.
- MultiStreams.MultiStream.Detach: each part's own `detach()` is not modelled, because the parts are held as values.
- MultiStreams.MultiStream.Close: each part's own `close()` is not modelled, for the same reason.
- MultiStreams.MultiStream.Read: requires a part or a non-positive length, because the source indexes the first part of an empty container. The contents are stated only when no '0' byte is left to read. A chunk "0" is false in PHP, so the loop drops it and moves to the next part. The result is still described exactly by `ReadLoop`.
- MultiStreams.ReadLoopHands: stated only when no '0' byte is left. With one, the source's read may come back short while bytes are left (see `ReadSkipsZeroChunk`).
- MultiStreams.ReadLoopEof: stated only when no '0' byte is left, for the same reason.
- MultiStreams.MultiStream.Seek: `tell()` = `k` is stated for parts without limits and content without a '0' byte. A forward read drops a chunk "0" as false, so with such a byte the source's seek really passes the target, and `tell()` falls behind the position in the content (see `SeekSkipsZeroChunk`). A limited part may return more than the forward read asks for. The exception a part's rewind raises is not modelled: a seekable container has only seekable parts, so in this model that rewind cannot fail.
- MultiStreams.MultiStream.Flush: requires a positive buffer size and every part's range inside its buffer. The contents are stated when no '0' byte is left.
  - The range requirement is a simplification, stronger than the source needs.
  - Only the last part matters: a last part whose `start + limit` lies past its data never reaches `eof()`, so the loop does not end.
  - An earlier part whose limit passes its data returns "" at the end of its data, and the loop moves on.
- MultiStreams.MultiStream.ToString: it has the same requirements as `Flush`, and its contents are stated when the content holds no '0' byte.
- Multipart.MultipartStream.ToString: it has the same requirements as `MultiStream.ToString`, and its contents are stated when the content holds no '0' byte.
  - The range requirement excludes a payload stream whose range passes its data, such as data "abc" with range "0-10".
  - The source serialises such a body, because the body always ends in a part it made itself.
- MultiStreams.MultiStream.Length: the length of a part is its size when seekable, else null. This is the interface the container expects of its parts.
- The PSR-7 trait (src/Psr7/StreamTrait.php) only delegates `getSize`, `getContents`, `getMetadata` and `__toString` to the operations above.

=== FILE: multi_stream.dfy ===
/**
 * `MultiStream` of src/MultiStream.php: several readable streams presented as one. The container
 * keeps its parts in order, the index of the part being read (`current`) and the number of bytes
 * it has returned (`offset`).
 *
 * The parts are held as values (`PartState`: buffer, pointer and window). The specification is
 * stated over them through four notions: the
 * concatenation of the parts' views (what a read from the start yields), what the container still
 * has to give (`Remaining`), `tell()` being accurate (`Tracked`), and a measure of what is left
 * before `eof()` (`Measure`).
 */
module MultiStreams {
  import opened Wrappers
  import opened Text
  import opened Streams

  // ---------------------------------------------------------------------------------------------
  // The parts, as values
  // ---------------------------------------------------------------------------------------------

  /** The bytes of the container from the start: each part's view, in order. */
  function Concat(ps: seq<PartState>): string
  {
    if |ps| == 0 then "" else View(ps[0]) + Concat(ps[1..])
  }

  /** What reads yield from the parts' pointers on: the rest of each part, in order. */
  function Rests(ps: seq<PartState>): string
  {
    if |ps| == 0 then "" else Rest(ps[0]) + Rests(ps[1..])
  }

  /** What the container still has to give with part `c` current. */
  function Remaining(ps: seq<PartState>, c: nat): string
  {
    if c <= |ps| then Rests(ps[c..]) else ""
  }

  /** Two lists of parts that differ at most in their file pointers. */
  predicate SameLayout(ps: seq<PartState>, qs: seq<PartState>)
  {
    && |ps| == |qs|
    && forall i :: 0 <= i < |ps| ==>
      && ps[i].content == qs[i].content && ps[i].start == qs[i].start
      && ps[i].limit == qs[i].limit && ps[i].seekable == qs[i].seekable
  }

  predicate NoLimit(ps: seq<PartState>)
  {
    forall i :: 0 <= i < |ps| ==> ps[i].limit.None?
  }

  predicate AllBounded(ps: seq<PartState>)
  {
    forall i :: 0 <= i < |ps| ==> Bounded(ps[i])
  }

  predicate AllOrdered(ps: seq<PartState>)
  {
    forall i :: 0 <= i < |ps| ==> Ordered(ps[i])
  }

  predicate AllSeekable(ps: seq<PartState>)
  {
    forall i :: 0 <= i < |ps| ==> ps[i].seekable
  }

  /** A current index that points at a part, or 0 when there is none. */
  predicate IndexOk(ps: seq<PartState>, c: nat)
  {
    if |ps| == 0 then c == 0 else c < |ps|
  }

  /** `eof()` of the container: no parts, or the last part is current and at its end. */
  predicate EofSpec(ps: seq<PartState>, c: nat)
  {
    |ps| == 0 || (c >= |ps| - 1 && c < |ps| && AtEof(ps[c]))
  }

  /** `tell()` is accurate: what the container still has to give is the concatenation from
      `offset` on, and the parts after the current one are rewound. */
  predicate Tracked(ps: seq<PartState>, c: nat, o: nat)
  {
    && IndexOk(ps, c)
    && o <= |Concat(ps)| && Remaining(ps, c) == Concat(ps)[o..]
    && (forall j :: c < j < |ps| ==> ps[j].pos == Lo(ps[j]))
  }

  /** The sum of the bytes each part has left before `eof()`. */
  function SumRem(ps: seq<PartState>): nat
  {
    if |ps| == 0 then 0 else Rem(ps[0]) + SumRem(ps[1..])
  }

  /** What is left to read from the current part on, plus the parts still to visit. */
  function Measure(ps: seq<PartState>, c: nat): nat
  {
    if c <= |ps| then SumRem(ps[c..]) + (|ps| - c) else 0
  }

  function SizeSum(ps: seq<PartState>): int
  {
    if |ps| == 0 then 0 else SizeOf(ps[0]) + SizeSum(ps[1..])
  }

  /** `length()` of the container: null when any part cannot seek, else the sum of the sizes. */
  function LengthSum(ps: seq<PartState>): Option<int>
  {
    if AllSeekable(ps) then Some(SizeSum(ps)) else None
  }

  /** Where `add` puts a new part: before the last one in keep-last mode, else at the end. */
  function InsertIndex(n: nat, keepLast: bool): nat
  {
    if n > 0 && keepLast then n - 1 else n
  }

  function Insert<T>(ss: seq<T>, x: T, keepLast: bool): seq<T>
  {
    if |ss| > 0 && keepLast then ss[..|ss| - 1] + [x] + [ss[|ss| - 1]] else ss + [x]
  }

  // ---------------------------------------------------------------------------------------------
  // Lemmas
  // ---------------------------------------------------------------------------------------------

  /** Insertion puts the new part at `InsertIndex` and shifts the parts from there by one, so in
      keep-last mode the previous last part stays last. */
  lemma InsertPlacement<T>(ss: seq<T>, x: T, keepLast: bool)
    ensures var r := Insert(ss, x, keepLast); var k := InsertIndex(|ss|, keepLast);
      && |r| == |ss| + 1 && k <= |ss| && r[k] == x
      && (forall i :: 0 <= i < |r| ==> r[i] == if i < k then ss[i] else if i == k then x else ss[i - 1])
      && (keepLast && |ss| > 0 ==> r[|r| - 1] == ss[|ss| - 1])
      && (!keepLast || |ss| == 0 ==> r == ss + [x])
  {
  }

  /** Inserting a part whose pointer is in its buffer keeps every pointer in its buffer and the
      current index pointing at a part, and keeps "every part can seek" when the new one can. */
  lemma InsertKeeps(ps: seq<PartState>, q: PartState, keepLast: bool, c: nat)
    requires PosValid(ps) && IndexOk(ps, c) && q.pos <= |q.content|
    ensures PosValid(Insert(ps, q, keepLast)) && IndexOk(Insert(ps, q, keepLast), c)
    ensures AllSeekable(ps) && q.seekable ==> AllSeekable(Insert(ps, q, keepLast))
    ensures !q.seekable ==> !AllSeekable(Insert(ps, q, keepLast))
  {
    InsertPlacement(ps, q, keepLast);
  }

  lemma {:induction false} ConcatLayout(ps: seq<PartState>, qs: seq<PartState>)
    requires SameLayout(ps, qs)
    ensures Concat(ps) == Concat(qs)
    decreases |ps|
  {
    if |ps| > 0 {
      assert View(ps[0]) == View(qs[0]);
      assert SameLayout(ps[1..], qs[1..]);
      ConcatLayout(ps[1..], qs[1..]);
    }
  }

  lemma {:induction false} SizeSumLayout(ps: seq<PartState>, qs: seq<PartState>)
    requires SameLayout(ps, qs)
    ensures SizeSum(ps) == SizeSum(qs)
    decreases |ps|
  {
    if |ps| > 0 {
      assert SameLayout(ps[1..], qs[1..]);
      SizeSumLayout(ps[1..], qs[1..]);
    }
  }

  lemma SameLayoutTrans(ps: seq<PartState>, qs: seq<PartState>, rs: seq<PartState>)
    requires SameLayout(ps, qs) && SameLayout(qs, rs)
    ensures SameLayout(ps, rs)
  {
  }

  /** Parts that differ only in their pointers yield the same bytes from the start and have the
      same ranges and lengths. */
  lemma NoLimitLayout(ps: seq<PartState>, qs: seq<PartState>)
    requires SameLayout(ps, qs) && NoLimit(qs)
    ensures NoLimit(ps)
  {
  }

  lemma BoundedLayout(ps: seq<PartState>, qs: seq<PartState>)
    requires SameLayout(ps, qs) && AllBounded(qs)
    ensures AllBounded(ps)
  {
  }

  lemma SeekableLayout(ps: seq<PartState>, qs: seq<PartState>)
    requires SameLayout(ps, qs)
    ensures AllSeekable(ps) == AllSeekable(qs)
  {
  }

  lemma LayoutFacts(ps: seq<PartState>, qs: seq<PartState>)
    requires SameLayout(ps, qs)
    ensures Concat(ps) == Concat(qs)
    ensures NoLimit(ps) == NoLimit(qs) && AllBounded(ps) == AllBounded(qs)
    ensures AllOrdered(ps) == AllOrdered(qs) && LengthSum(ps) == LengthSum(qs)
    ensures AllSeekable(ps) == AllSeekable(qs)
  {
    ConcatLayout(ps, qs);
    SizeSumLayout(ps, qs);
  }

  lemma {:induction false} ConcatAppend(a: seq<PartState>, b: seq<PartState>)
    ensures Concat(a + b) == Concat(a) + Concat(b)
    decreases |a|
  {
    if |a| == 0 {
      assert a + b == b;
    } else {
      assert (a + b)[0] == a[0] && (a + b)[1..] == a[1..] + b;
      ConcatAppend(a[1..], b);
    }
  }

  lemma {:induction false} RestsAppend(a: seq<PartState>, b: seq<PartState>)
    ensures Rests(a + b) == Rests(a) + Rests(b)
    decreases |a|
  {
    if |a| == 0 {
      assert a + b == b;
    } else {
      assert (a + b)[0] == a[0] && (a + b)[1..] == a[1..] + b;
      RestsAppend(a[1..], b);
    }
  }

  lemma {:induction false} SizeSumSnoc(ps: seq<PartState>, i: nat)
    requires i < |ps|
    ensures SizeSum(ps[..i + 1]) == SizeSum(ps[..i]) + SizeOf(ps[i])
    decreases i
  {
    if i > 0 {
      SizeSumSnoc(ps[1..], i - 1);
      assert ps[..i + 1][1..] == ps[1..][..i];
      assert ps[..i][1..] == ps[1..][..i - 1];
    } else {
      assert ps[..1][1..] == [];
    }
  }

  /** With every part rewound, what the parts have left is the concatenation. */
  lemma {:induction false} RestsFromStart(ps: seq<PartState>)
    requires forall j :: 0 <= j < |ps| ==> ps[j].pos == Lo(ps[j])
    ensures Rests(ps) == Concat(ps)
    decreases |ps|
  {
    if |ps| > 0 {
      RestFromStart(ps[0]);
      RestsFromStart(ps[1..]);
    }
  }

  /** What is left from part `c` on is the rest of part `c`, then what is left after it. */
  lemma RemainingCons(ps: seq<PartState>, c: nat)
    requires c < |ps|
    ensures Remaining(ps, c) == Rest(ps[c]) + Remaining(ps, c + 1)
  {
    assert ps[c..][0] == ps[c] && ps[c..][1..] == ps[c + 1..];
  }

  /** A part with nothing left adds nothing to what the container has left. */
  lemma RemainingSkip(ps: seq<PartState>, c: nat)
    requires c < |ps| && Rest(ps[c]) == ""
    ensures Remaining(ps, c) == Remaining(ps, c + 1)
  {
    RemainingCons(ps, c);
    assert Rest(ps[c]) + Remaining(ps, c + 1) == Remaining(ps, c + 1);
  }

  /** Replacing part `c` replaces its rest and nothing else. */
  lemma RemainingUpdate(ps: seq<PartState>, c: nat, q: PartState)
    requires c < |ps|
    ensures Remaining(ps[c := q], c) == Rest(q) + Remaining(ps, c + 1)
  {
    RemainingCons(ps[c := q], c);
    assert ps[c := q][c + 1..] == ps[c + 1..];
  }

  /** At `eof()` the container has nothing left to give. */
  lemma EofDrained(ps: seq<PartState>, c: nat)
    requires IndexOk(ps, c) && EofSpec(ps, c)
    ensures Remaining(ps, c) == ""
  {
    if |ps| > 0 {
      EofLeavesNothing(ps[c]);
      RemainingCons(ps, c);
      assert ps[c + 1..] == [];
    } else {
      assert ps[c..] == [];
    }
  }

  /** With every part rewound and the first one current, `tell()` = 0 is accurate. */
  lemma TrackedStart(ps: seq<PartState>)
    requires forall j :: 0 <= j < |ps| ==> ps[j].pos == Lo(ps[j])
    ensures Tracked(ps, 0, 0)
  {
    assert ps[0..] == ps;
    RestsFromStart(ps);
  }

  /** In an accurate state the bytes still to come are a piece of the concatenation, so they hold
      no '0' byte when it holds none. */
  lemma TrackedNoZero(ps: seq<PartState>, c: nat, o: nat)
    requires Tracked(ps, c, o) && '0' !in Concat(ps)
    ensures '0' !in Remaining(ps, c)
  {
    var r := Remaining(ps, c);
    assert forall t :: 0 <= t < |r| ==> r[t] == Concat(ps)[o + t];
  }

  /** In an accurate state at `eof()`, `tell()` is the length of the concatenation. */
  lemma TrackedAtEof(ps: seq<PartState>, c: nat, o: nat)
    requires Tracked(ps, c, o) && EofSpec(ps, c)
    ensures o == |Concat(ps)|
  {
    EofDrained(ps, c);
  }

  /** A step that hands out `r` from what was left, moving only the pointers of the current part
      and the parts up to the new current one, keeps `tell()` accurate once `r` is counted. */
  lemma TrackedStep(ps: seq<PartState>, c: nat, o: nat, qs: seq<PartState>, c2: nat, r: string)
    requires Tracked(ps, c, o) && SameLayout(qs, ps) && c <= c2 && IndexOk(qs, c2)
    requires Remaining(ps, c) == r + Remaining(qs, c2)
    requires forall j :: c2 < j < |qs| ==> qs[j] == ps[j]
    ensures Tracked(qs, c2, o + |r|)
  {
    ConcatLayout(qs, ps);
    var cc := Concat(ps);
    DropPrefix(cc[o..], r, Remaining(qs, c2));
    assert cc[o..][|r|..] == cc[o + |r|..];
  }

  lemma DropPrefix(s: string, a: string, b: string)
    requires s == a + b
    ensures |a| <= |s| && b == s[|a|..]
  {
    assert (a + b)[|a|..] == b;
  }

  lemma AppendAssoc(a: string, b: string, c: string)
    ensures (a + b) + c == a + (b + c)
  {
  }

  /** Handing out `b` from what was left after `a` leaves `u`: `a + b` has been handed out. */
  lemma Regroup(s: string, a: string, b: string, t: string, u: string)
    requires s == a + t && t == b + u
    ensures s == (a + b) + u
  {
    AppendAssoc(a, b, u);
  }

  lemma SuffixGrows(a: string, p: string, v: string, o: nat)
    requires o <= |p| && a == p[o..]
    ensures o <= |p + v| && a + v == (p + v)[o..]
  {
    assert (p + v)[o..] == p[o..] + v;
  }

  lemma SuffixGrowsInside(a: string, p: string, v: string, l: string, o: nat)
    requires o <= |p + l| && a + l == (p + l)[o..]
    ensures o <= |p + v + l| && a + v + l == (p + v + l)[o..]
  {
    assert o <= |p|;
    assert (p + l)[o..] == p[o..] + l;
    assert a == (a + l)[..|a|] == p[o..];
    assert (p + v + l)[o..] == p[o..] + v + l;
  }

  lemma ConcatOne(q: PartState)
    ensures Concat([q]) == View(q) && Rests([q]) == Rest(q)
  {
    assert [q][1..] == [];
  }

  lemma ConcatSnoc(ps: seq<PartState>, q: PartState)
    ensures Concat(ps + [q]) == Concat(ps) + View(q)
  {
    ConcatAppend(ps, [q]);
    ConcatOne(q);
  }

  lemma RemainingSnoc(ps: seq<PartState>, q: PartState, c: nat)
    requires c <= |ps|
    ensures Remaining(ps + [q], c) == Remaining(ps, c) + Rest(q)
  {
    assert (ps + [q])[c..] == ps[c..] + [q];
    RestsAppend(ps[c..], [q]);
    ConcatOne(q);
  }

  /** Appending a rewound part keeps `tell()` accurate: its bytes come both at the end of what is
      left and at the end of the concatenation. */
  lemma TrackedAppend(ps: seq<PartState>, q: PartState, c: nat, o: nat)
    requires Tracked(ps, c, o) && q.pos == Lo(q)
    ensures Tracked(ps + [q], c, o)
  {
    ConcatSnoc(ps, q);
    RemainingSnoc(ps, q, c);
    RestFromStart(q);
    SuffixGrows(Remaining(ps, c), Concat(ps), View(q), o);
  }

  lemma RemainingBeforeLast(init: seq<PartState>, last: PartState, q: PartState, c: nat)
    requires c <= |init|
    ensures Remaining(init + [last], c) == Remaining(init, c) + Rest(last)
    ensures Remaining(init + [q] + [last], c) == Remaining(init, c) + Rest(q) + Rest(last)
  {
    RemainingSnoc(init, last, c);
    RemainingSnoc(init + [q], last, c);
    RemainingSnoc(init, q, c);
  }

  lemma ConcatBeforeLast(init: seq<PartState>, last: PartState, q: PartState)
    ensures Concat(init + [last]) == Concat(init) + View(last)
    ensures Concat(init + [q] + [last]) == Concat(init) + View(q) + View(last)
  {
    ConcatSnoc(init, last);
    ConcatSnoc(init + [q], last);
    ConcatSnoc(init, q);
  }

  /** Inserting a rewound part before a last part that is not current yet keeps `tell()`
      accurate. */
  lemma TrackedBeforeLast(init: seq<PartState>, last: PartState, q: PartState, c: nat, o: nat)
    requires Tracked(init + [last], c, o) && q.pos == Lo(q) && c < |init|
    ensures Tracked(init + [q] + [last], c, o)
  {
    var ps := init + [last];
    var rs := init + [q] + [last];
    forall j | c < j < |rs|
      ensures rs[j].pos == Lo(rs[j])
    {
      if j < |init| {
        assert rs[j] == ps[j];
      } else if j == |init| + 1 {
        assert rs[j] == ps[|init|];
      }
    }
    assert ps[|init|] == last;
    RestFromStart(q);
    RestFromStart(last);
    RemainingBeforeLast(init, last, q, c);
    ConcatBeforeLast(init, last, q);
    SuffixGrowsInside(Remaining(init, c), Concat(init), View(q), View(last), o);
  }

  /** `tell()` is accurate and a part inserted by keep-last mode lands behind the current one. */
  predicate InsertBehind(ps: seq<PartState>, c: nat, o: nat, keepLast: bool)
  {
    Tracked(ps, c, o) && (|ps| == 0 || c < InsertIndex(|ps|, keepLast))
  }

  /** Adding a rewound part behind the current one keeps `tell()` accurate. */
  lemma TrackedInsert(ps: seq<PartState>, q: PartState, keepLast: bool, c: nat, o: nat)
    requires InsertBehind(ps, c, o, keepLast) && q.pos == Lo(q)
    ensures Tracked(Insert(ps, q, keepLast), c, o)
  {
    if |ps| > 0 && keepLast {
      var m := |ps| - 1;
      assert ps == ps[..m] + [ps[m]];
      TrackedBeforeLast(ps[..m], ps[m], q, c, o);
    } else {
      TrackedAppend(ps, q, c, o);
    }
  }

  /** What `add` needs of an insertion: the parts stay well-formed, seekability is the parts'
      conjunction, and a rewound part inserted behind the current one keeps `tell()` accurate. */
  lemma InsertFacts(ps: seq<PartState>, q: PartState, keepLast: bool, c: nat, o: nat)
    requires PosValid(ps) && IndexOk(ps, c) && q.pos <= |q.content|
    ensures PosValid(Insert(ps, q, keepLast)) && IndexOk(Insert(ps, q, keepLast), c)
    ensures AllSeekable(ps) && q.seekable ==> AllSeekable(Insert(ps, q, keepLast))
    ensures !q.seekable ==> !AllSeekable(Insert(ps, q, keepLast))
    ensures InsertBehind(ps, c, o, keepLast) && q.pos == Lo(q) ==>
      Tracked(Insert(ps, q, keepLast), c, o)
  {
    InsertKeeps(ps, q, keepLast, c);
    if InsertBehind(ps, c, o, keepLast) && q.pos == Lo(q) {
      TrackedInsert(ps, q, keepLast, c, o);
    }
  }

  lemma {:induction false} SumRemTail(ps: seq<PartState>, c: nat)
    requires c < |ps|
    ensures SumRem(ps[c..]) == Rem(ps[c]) + SumRem(ps[c + 1..])
  {
    assert ps[c..][1..] == ps[c + 1..];
  }

  /** Moving to the next part decreases the measure. */
  lemma MeasureAdvance(ps: seq<PartState>, c: nat)
    requires c < |ps|
    ensures Measure(ps, c + 1) < Measure(ps, c)
  {
    SumRemTail(ps, c);
  }

  /** Replacing the current part changes the measure by the change in its remaining bytes. */
  lemma MeasureUpdate(ps: seq<PartState>, c: nat, q: PartState)
    requires c < |ps|
    ensures Measure(ps[c := q], c) == Measure(ps, c) - Rem(ps[c]) + Rem(q)
  {
    SumRemTail(ps, c);
    SumRemTail(ps[c := q], c);
    assert ps[c := q][c + 1..] == ps[c + 1..];
  }

  /** With every part seekable and every range ordered, `length()` is the number of bytes the
      container yields from the start. */
  lemma {:induction false} LengthIsConcatLength(ps: seq<PartState>)
    requires AllSeekable(ps) && AllOrdered(ps)
    ensures LengthSum(ps) == Some(|Concat(ps)|)
    decreases |ps|
  {
    if |ps| > 0 {
      LengthIsConcatLength(ps[1..]);
      SizeIsViewLength(ps[0]);
    }
  }

  /** Rewinding every part keeps the layout and makes `tell()` = 0 accurate, with the whole
      concatenation left to read. */
  lemma RewoundAll(ps0: seq<PartState>, ps: seq<PartState>)
    requires |ps| == |ps0| && forall j :: 0 <= j < |ps| ==> ps[j] == Rewound(ps0[j])
    ensures SameLayout(ps, ps0) && Concat(ps) == Concat(ps0) && PosValid(ps)
    ensures Tracked(ps, 0, 0) && Remaining(ps, 0) == Concat(ps0)
  {
    assert SameLayout(ps, ps0);
    ConcatLayout(ps, ps0);
    TrackedStart(ps);
  }

  lemma SuffixNoZero(s: string, a: string, b: string)
    requires '0' !in s && s == a + b
    ensures '0' !in b
  {
    assert forall t :: 0 <= t < |b| ==> b[t] == s[|a| + t];
  }

  // ---------------------------------------------------------------------------------------------
  // The loops of read, seek and flush, as functions of the parts
  // ---------------------------------------------------------------------------------------------

  /** Every pointer lies inside its buffer. */
  predicate PosValid(ps: seq<PartState>)
  {
    forall i :: 0 <= i < |ps| ==> ps[i].pos <= |ps[i].content|
  }

  /** A read of a positive length, from bounded parts, when `eof()` does not hold yet. */
  predicate Draining(ps0: seq<PartState>, c0: nat, length: int)
  {
    length > 0 && AllBounded(ps0) && !EofSpec(ps0, c0)
  }

  /** `ps`, `c` come from `ps0`, `c0` by moving pointers only, and only up to the current part;
      the index only grows. */
  predicate Shape(ps0: seq<PartState>, c0: nat, ps: seq<PartState>, c: nat)
  {
    && SameLayout(ps, ps0) && PosValid(ps) && c0 <= c && IndexOk(ps, c)
    && (forall j :: c < j < |ps| ==> ps[j] == ps0[j])
  }

  lemma ShapeTrans(ps: seq<PartState>, c: nat, qs: seq<PartState>, c2: nat, rs: seq<PartState>, c3: nat)
    requires Shape(ps, c, qs, c2) && Shape(qs, c2, rs, c3)
    ensures Shape(ps, c, rs, c3)
  {
  }

  /** The state of a part after `fread` of the length `_bufferSize` allows. */
  function AfterRead(p: PartState, n: int): (q: PartState)
    requires p.pos <= |p.content|
    ensures q.pos <= |q.content|
  {
    ReadConsumesRem(p, n);
    p.(pos := p.pos + |Chunk(p, ReadLength(p, n))|)
  }

  /** The loop of `read($length)`, as a function, at the head of an iteration: `got` has been
      gathered and `progress` asks to move to the next part. The loop stops once the request is
      filled, or when it should move on from the last part; otherwise it moves on if asked to or
      if the current part is at its end, and reads. It yields the parts, the current index and
      the bytes gathered when the loop stops. */
  function ReadLoop(ps: seq<PartState>, c: nat, length: int, got: string, progress: bool)
    : (r: (seq<PartState>, nat, string))
    requires PosValid(ps) && IndexOk(ps, c) && (|ps| > 0 || |got| >= length)
    ensures |r.0| == |ps| && PosValid(r.0) && IndexOk(r.0, r.1)
    decreases |ps| - c, length - |got|, if progress then 0 else 2
  {
    if |got| >= length then (ps, c, got)
    else if progress || AtEof(ps[c]) then
      if c == |ps| - 1 then (ps, c, got) else ReadFrom(ps, c + 1, length, got)
    else ReadFrom(ps, c, length, got)
  }

  /** The rest of an iteration of the loop of `read`: read what is still requested from part `c`;
      a false chunk ("" or "0") asks to move on, anything else is gathered. */
  function ReadFrom(ps: seq<PartState>, c: nat, length: int, got: string): (r: (seq<PartState>, nat, string))
    requires PosValid(ps) && c < |ps| && |got| < length
    ensures |r.0| == |ps| && PosValid(r.0) && IndexOk(r.0, r.1)
    decreases |ps| - c, length - |got|, 1
  {
    var n := length - |got|;
    var ch := Chunk(ps[c], ReadLength(ps[c], n));
    var qs := ps[c := AfterRead(ps[c], n)];
    if Falsy(ch) then ReadLoop(qs, c, length, got, true)
    else ReadLoop(qs, c, length, got + ch, false)
  }

  /** The loop of `read($length)`, on the parts and the current index. */
  method ReadParts(ps0: seq<PartState>, c0: nat, length: int) returns (ps: seq<PartState>, c: nat, got: string)
    requires PosValid(ps0) && IndexOk(ps0, c0) && (|ps0| > 0 || length <= 0)
    ensures (ps, c, got) == ReadLoop(ps0, c0, length, "", false)
  {
    ps, c, got := ps0, c0, "";
    var total := |ps| - 1;
    var remaining := length;
    var progressToNext := false;

    while remaining > 0
      invariant PosValid(ps) && IndexOk(ps, c) && |ps| == |ps0| && total == |ps| - 1
      invariant remaining == length - |got| && (|ps| > 0 || remaining <= 0)
      invariant ReadLoop(ps, c, length, got, progressToNext) == ReadLoop(ps0, c0, length, "", false)
      decreases total - c, remaining, if progressToNext then 0 else 2
    {
      ghost var goal := ReadLoop(ps, c, length, got, progressToNext);
      // The current part is spent: move on, or stop after the last one.
      if progressToNext || AtEof(ps[c]) {
        progressToNext := false;
        if c == total {
          assert goal == (ps, c, got);
          break;
        }
        c := c + 1;
      }
      assert goal == ReadFrom(ps, c, length, got);

      var part := ps[c];
      var result := Chunk(part, ReadLength(part, remaining));
      ps := ps[c := AfterRead(part, remaining)];

      if Falsy(result) {
        progressToNext := true;
        assert goal == ReadLoop(ps, c, length, got, true);
        continue;
      }

      got := got + result;
      remaining := length - |got|;
      assert goal == ReadLoop(ps, c, length, got, false);
    }
  }

  /** A read moves pointers only, and only up to the part it ends on. */
  lemma {:induction false} ReadLoopShape(ps: seq<PartState>, c: nat, length: int, got: string, progress: bool)
    requires PosValid(ps) && IndexOk(ps, c) && (|ps| > 0 || |got| >= length)
    ensures var r := ReadLoop(ps, c, length, got, progress); Shape(ps, c, r.0, r.1)
    decreases |ps| - c, length - |got|, if progress then 0 else 2
  {
    if |got| >= length {
      assert ReadLoop(ps, c, length, got, progress) == (ps, c, got);
    } else if (progress || AtEof(ps[c])) && c == |ps| - 1 {
      assert ReadLoop(ps, c, length, got, progress) == (ps, c, got);
    } else {
      var c' := if progress || AtEof(ps[c]) then c + 1 else c;
      assert ReadLoop(ps, c, length, got, progress) == ReadFrom(ps, c', length, got);
      ReadFromShape(ps, c', length, got);
    }
  }

  lemma {:induction false} ReadFromShape(ps: seq<PartState>, c: nat, length: int, got: string)
    requires PosValid(ps) && c < |ps| && |got| < length
    ensures var r := ReadFrom(ps, c, length, got); Shape(ps, c, r.0, r.1)
    decreases |ps| - c, length - |got|, 1
  {
    var n := length - |got|;
    var ch := Chunk(ps[c], ReadLength(ps[c], n));
    var qs := ps[c := AfterRead(ps[c], n)];
    var r := ReadFrom(ps, c, length, got);
    var got' := if Falsy(ch) then got else got + ch;
    assert ReadFrom(ps, c, length, got) == ReadLoop(qs, c, length, got', Falsy(ch));
    ReadLoopShape(qs, c, length, got', Falsy(ch));
    ShapeTrans(ps, c, qs, c, r.0, r.1);
  }

  /** Without limits, a read gathers no more than it was asked for. */
  lemma {:induction false} ReadLoopBound(ps: seq<PartState>, c: nat, length: int, got: string, progress: bool)
    requires PosValid(ps) && IndexOk(ps, c) && (|ps| > 0 || |got| >= length)
    requires NoLimit(ps) && |got| <= Max(length, 0)
    ensures |ReadLoop(ps, c, length, got, progress).2| <= Max(length, 0)
    decreases |ps| - c, length - |got|, if progress then 0 else 2
  {
    if |got| >= length {
      assert ReadLoop(ps, c, length, got, progress) == (ps, c, got);
    } else if (progress || AtEof(ps[c])) && c == |ps| - 1 {
      assert ReadLoop(ps, c, length, got, progress) == (ps, c, got);
    } else {
      var c' := if progress || AtEof(ps[c]) then c + 1 else c;
      assert ReadLoop(ps, c, length, got, progress) == ReadFrom(ps, c', length, got);
      ReadFromBound(ps, c', length, got);
    }
  }

  lemma {:induction false} ReadFromBound(ps: seq<PartState>, c: nat, length: int, got: string)
    requires PosValid(ps) && c < |ps| && |got| < length && NoLimit(ps)
    ensures |ReadFrom(ps, c, length, got).2| <= Max(length, 0)
    decreases |ps| - c, length - |got|, 1
  {
    var n := length - |got|;
    var ch := Chunk(ps[c], ReadLength(ps[c], n));
    var qs := ps[c := AfterRead(ps[c], n)];
    ReadWithoutLimit(ps[c], n);
    assert NoLimit(qs) by {
      assert forall i :: 0 <= i < |qs| ==> qs[i].limit == ps[i].limit;
    }
    var got' := if Falsy(ch) then got else got + ch;
    assert ReadFrom(ps, c, length, got) == ReadLoop(qs, c, length, got', Falsy(ch));
    ReadLoopBound(qs, c, length, got', Falsy(ch));
  }

  /** When what was left at the call (`r0`) holds no '0' byte, it is what has been gathered
      followed by what is left now; the flag is set only once the current part has nothing
      left. */
  predicate Gathered(r0: string, ps: seq<PartState>, c: nat, got: string, progress: bool)
  {
    '0' !in r0 ==>
      && r0 == got + Remaining(ps, c)
      && (progress && c < |ps| ==> Rest(ps[c]) == "")
  }

  /** Moving on from a part that is at its end, or that returned a false chunk. */
  lemma AdvanceKeepsGathered(r0: string, ps: seq<PartState>, c: nat, got: string, progress: bool)
    requires Gathered(r0, ps, c, got, progress)
    requires c + 1 < |ps| && (progress || AtEof(ps[c]))
    ensures Gathered(r0, ps, c + 1, got, false)
  {
    if '0' !in r0 {
      if !progress {
        EofLeavesNothing(ps[c]);
      }
      RemainingSkip(ps, c);
    }
  }

  /** A read from the current part hands out the first bytes of what the container has left, and
      an empty chunk means the part has nothing left. */
  lemma ReadSplitsRemaining(ps: seq<PartState>, c: nat, n: int)
    requires PosValid(ps) && c < |ps| && n > 0
    ensures var ch := Chunk(ps[c], ReadLength(ps[c], n)); var q := AfterRead(ps[c], n);
      && Remaining(ps, c) == ch + Remaining(ps[c := q], c)
      && (ch == "" ==> Rest(q) == "")
  {
    var p := ps[c];
    var ch := Chunk(p, ReadLength(p, n));
    var q := AfterRead(p, n);
    ReadTakesRest(p, n);
    assert Rest(p) == ch + Rest(q) by {
      assert Rest(p) == Rest(p)[..|ch|] + Rest(p)[|ch|..];
    }
    RemainingCons(ps, c);
    RemainingUpdate(ps, c, q);
    AppendAssoc(ch, Rest(q), Remaining(ps, c + 1));
  }

  /** A piece of a string without a '0' byte is not "0". */
  lemma PieceNotZero(s: string, a: string, b: string, t: string)
    requires s == a + b + t && '0' !in s
    ensures !(|b| == 1 && b[0] == '0')
  {
    assert |b| == 1 ==> s[|a|] == b[0];
  }

  /** A read from the current part hands out the next bytes of what is left; a false chunk is
      empty, since '0' cannot occur, and then the part has nothing left. */
  lemma ReadKeepsGathered(r0: string, ps: seq<PartState>, c: nat, got: string, n: int)
    requires Gathered(r0, ps, c, got, false) && PosValid(ps) && c < |ps| && n > 0
    ensures var ch := Chunk(ps[c], ReadLength(ps[c], n)); var q := AfterRead(ps[c], n);
      && (Falsy(ch) ==> Gathered(r0, ps[c := q], c, got, true))
      && (!Falsy(ch) ==> Gathered(r0, ps[c := q], c, got + ch, false))
  {
    if '0' !in r0 {
      var ch := Chunk(ps[c], ReadLength(ps[c], n));
      var rest := Remaining(ps[c := AfterRead(ps[c], n)], c);
      ReadSplitsRemaining(ps, c, n);
      Regroup(r0, got, ch, Remaining(ps, c), rest);
      PieceNotZero(r0, got, ch, rest);
    }
  }

  /** Once the last part has nothing left, neither has the container. */
  lemma LastPartDrained(r0: string, ps: seq<PartState>, c: nat, got: string, progress: bool)
    requires Gathered(r0, ps, c, got, progress) && '0' !in r0
    requires |ps| > 0 && c == |ps| - 1 && (progress || AtEof(ps[c]))
    ensures Remaining(ps, c) == ""
  {
    if !progress {
      EofLeavesNothing(ps[c]);
    }
    RemainingCons(ps, c);
    assert ps[c + 1..] == [];
  }

  /** A read hands out the next bytes of what the container has left, as long as none of them is
      '0'; it returns fewer bytes than asked for only when nothing is left. */
  lemma {:induction false} ReadLoopHands(r0: string, ps: seq<PartState>, c: nat, length: int, got: string, progress: bool)
    requires PosValid(ps) && IndexOk(ps, c) && (|ps| > 0 || |got| >= length)
    requires Gathered(r0, ps, c, got, progress) && '0' !in r0
    ensures var r := ReadLoop(ps, c, length, got, progress);
      r0 == r.2 + Remaining(r.0, r.1) && (|r.2| < length ==> Remaining(r.0, r.1) == "")
    decreases |ps| - c, length - |got|, if progress then 0 else 2
  {
    if |got| >= length {
      assert ReadLoop(ps, c, length, got, progress) == (ps, c, got);
    } else if (progress || AtEof(ps[c])) && c == |ps| - 1 {
      assert ReadLoop(ps, c, length, got, progress) == (ps, c, got);
      LastPartDrained(r0, ps, c, got, progress);
    } else {
      var c' := if progress || AtEof(ps[c]) then c + 1 else c;
      if c' == c + 1 {
        AdvanceKeepsGathered(r0, ps, c, got, progress);
      }
      assert ReadLoop(ps, c, length, got, progress) == ReadFrom(ps, c', length, got);
      ReadFromHands(r0, ps, c', length, got);
    }
  }

  lemma {:induction false} ReadFromHands(r0: string, ps: seq<PartState>, c: nat, length: int, got: string)
    requires PosValid(ps) && c < |ps| && |got| < length
    requires Gathered(r0, ps, c, got, false) && '0' !in r0
    ensures var r := ReadFrom(ps, c, length, got);
      r0 == r.2 + Remaining(r.0, r.1) && (|r.2| < length ==> Remaining(r.0, r.1) == "")
    decreases |ps| - c, length - |got|, 1
  {
    var n := length - |got|;
    var ch := Chunk(ps[c], ReadLength(ps[c], n));
    var qs := ps[c := AfterRead(ps[c], n)];
    ReadKeepsGathered(r0, ps, c, got, n);
    var got' := if Falsy(ch) then got else got + ch;
    assert ReadFrom(ps, c, length, got) == ReadLoop(qs, c, length, got', Falsy(ch));
    ReadLoopHands(r0, qs, c, length, got', Falsy(ch));
  }

  /** From bounded parts holding no '0' byte, a read that returns fewer bytes than asked for
      leaves the container at `eof()`. */
  lemma {:induction false} ReadLoopEof(r0: string, ps: seq<PartState>, c: nat, length: int, got: string, progress: bool)
    requires PosValid(ps) && IndexOk(ps, c) && (|ps| > 0 || |got| >= length) && AllBounded(ps)
    requires Gathered(r0, ps, c, got, progress) && '0' !in r0
    ensures var r := ReadLoop(ps, c, length, got, progress); |r.2| < length ==> EofSpec(r.0, r.1)
    decreases |ps| - c, length - |got|, if progress then 0 else 2
  {
    if |got| >= length {
      assert ReadLoop(ps, c, length, got, progress) == (ps, c, got);
    } else if (progress || AtEof(ps[c])) && c == |ps| - 1 {
      assert ReadLoop(ps, c, length, got, progress) == (ps, c, got);
      if progress {
        NothingLeftAtEof(ps[c]);
      }
    } else {
      var c' := if progress || AtEof(ps[c]) then c + 1 else c;
      if c' == c + 1 {
        AdvanceKeepsGathered(r0, ps, c, got, progress);
      }
      assert ReadLoop(ps, c, length, got, progress) == ReadFrom(ps, c', length, got);
      ReadFromEof(r0, ps, c', length, got);
    }
  }

  lemma {:induction false} ReadFromEof(r0: string, ps: seq<PartState>, c: nat, length: int, got: string)
    requires PosValid(ps) && c < |ps| && |got| < length && AllBounded(ps)
    requires Gathered(r0, ps, c, got, false) && '0' !in r0
    ensures var r := ReadFrom(ps, c, length, got); |r.2| < length ==> EofSpec(r.0, r.1)
    decreases |ps| - c, length - |got|, 1
  {
    var n := length - |got|;
    var ch := Chunk(ps[c], ReadLength(ps[c], n));
    var qs := ps[c := AfterRead(ps[c], n)];
    ReadKeepsGathered(r0, ps, c, got, n);
    assert AllBounded(qs) by {
      assert Bounded(qs[c]);
    }
    var got' := if Falsy(ch) then got else got + ch;
    assert ReadFrom(ps, c, length, got) == ReadLoop(qs, c, length, got', Falsy(ch));
    ReadLoopEof(r0, qs, c, length, got', Falsy(ch));
  }

  /** A read never increases what is left before `eof()`. */
  lemma {:induction false} ReadLoopMeasure(ps: seq<PartState>, c: nat, length: int, got: string, progress: bool)
    requires PosValid(ps) && IndexOk(ps, c) && (|ps| > 0 || |got| >= length)
    ensures var r := ReadLoop(ps, c, length, got, progress); Measure(r.0, r.1) <= Measure(ps, c)
    decreases |ps| - c, length - |got|, if progress then 0 else 2
  {
    if |got| >= length {
      assert ReadLoop(ps, c, length, got, progress) == (ps, c, got);
    } else if (progress || AtEof(ps[c])) && c == |ps| - 1 {
      assert ReadLoop(ps, c, length, got, progress) == (ps, c, got);
    } else {
      var c' := if progress || AtEof(ps[c]) then c + 1 else c;
      if c' == c + 1 {
        MeasureAdvance(ps, c);
      }
      assert ReadLoop(ps, c, length, got, progress) == ReadFrom(ps, c', length, got);
      ReadFromMeasure(ps, c', length, got);
    }
  }

  lemma {:induction false} ReadFromMeasure(ps: seq<PartState>, c: nat, length: int, got: string)
    requires PosValid(ps) && c < |ps| && |got| < length
    ensures var r := ReadFrom(ps, c, length, got); Measure(r.0, r.1) <= Measure(ps, c)
    ensures Bounded(ps[c]) && !AtEof(ps[c]) ==>
      var r := ReadFrom(ps, c, length, got); Measure(r.0, r.1) < Measure(ps, c)
    decreases |ps| - c, length - |got|, 1
  {
    var n := length - |got|;
    var ch := Chunk(ps[c], ReadLength(ps[c], n));
    var qs := ps[c := AfterRead(ps[c], n)];
    ReadConsumesRem(ps[c], n);
    MeasureUpdate(ps, c, AfterRead(ps[c], n));
    var got' := if Falsy(ch) then got else got + ch;
    assert ReadFrom(ps, c, length, got) == ReadLoop(qs, c, length, got', Falsy(ch));
    ReadLoopMeasure(qs, c, length, got', Falsy(ch));
  }

  /** A read of a positive length from bounded parts before `eof()` strictly decreases what is
      left, so `flush()` ends. */
  lemma ReadLoopDrains(ps: seq<PartState>, c: nat, length: int)
    requires PosValid(ps) && IndexOk(ps, c) && Draining(ps, c, length)
    ensures var r := ReadLoop(ps, c, length, "", false); Measure(r.0, r.1) < Measure(ps, c)
  {
    if AtEof(ps[c]) {
      assert c + 1 < |ps|;
      assert ReadLoop(ps, c, length, "", false) == ReadFrom(ps, c + 1, length, "");
      MeasureAdvance(ps, c);
      ReadFromMeasure(ps, c + 1, length, "");
    } else {
      assert ReadLoop(ps, c, length, "", false) == ReadFrom(ps, c, length, "");
      assert Bounded(ps[c]);
      ReadFromMeasure(ps, c, length, "");
    }
  }

  /** In an accurate state with nothing left, `tell()` is the length of the concatenation. */
  lemma TrackedDrained(ps: seq<PartState>, c: nat, o: nat)
    requires Tracked(ps, c, o) && Remaining(ps, c) == ""
    ensures o == |Concat(ps)|
  {
  }

  /** Every part rewound. */
  function RewindAll(ps: seq<PartState>): (qs: seq<PartState>)
    ensures |qs| == |ps| && forall j :: 0 <= j < |ps| ==> qs[j] == Rewound(ps[j])
  {
    if |ps| == 0 then [] else [Rewound(ps[0])] + RewindAll(ps[1..])
  }

  /** The `foreach` of `seek` that rewinds every part. */
  method RewindParts(ps0: seq<PartState>) returns (ps: seq<PartState>)
    ensures ps == RewindAll(ps0)
  {
    ps := ps0;
    var i := 0;
    while i < |ps|
      invariant 0 <= i <= |ps| == |ps0|
      invariant forall j :: 0 <= j < i ==> ps[j] == Rewound(ps0[j])
      invariant forall j :: i <= j < |ps| ==> ps[j] == ps0[j]
    {
      ps := ps[i := Rewound(ps[i])];
      i := i + 1;
    }
  }

  /** The forward reads of `seek($offset)`, as a function: from `tell()` = `o`, read at most 8096
      bytes at a time until the offset is reached, `eof()` holds or a read returns nothing. */
  function SeekLoop(ps: seq<PartState>, c: nat, o: nat, k: int): (r: (seq<PartState>, nat, nat))
    requires PosValid(ps) && IndexOk(ps, c)
    ensures |r.0| == |ps| && PosValid(r.0) && IndexOk(r.0, r.1)
    decreases k - o
  {
    if o >= k || EofSpec(ps, c) then (ps, c, o)
    else
      var rd := ReadLoop(ps, c, Min(8096, k - o), "", false);
      if |rd.2| == 0 then (rd.0, rd.1, o) else SeekLoop(rd.0, rd.1, o + |rd.2|, k)
  }

  /** The body of `seek($offset)` once the checks have passed, on the parts: rewind every part,
      then read forward. */
  method SeekParts(ps0: seq<PartState>, k: int) returns (ps: seq<PartState>, c: nat, o: nat)
    requires PosValid(ps0)
    ensures (ps, c, o) == SeekLoop(RewindAll(ps0), 0, 0, k)
  {
    ps := RewindParts(ps0);
    c, o := 0, 0;

    // Seek to the actual position by reading from each part.
    while o < k && !EofSpec(ps, c)
      invariant PosValid(ps) && IndexOk(ps, c)
      invariant SeekLoop(ps, c, o, k) == SeekLoop(RewindAll(ps0), 0, 0, k)
      decreases k - o
    {
      var qs, c2, result := ReadParts(ps, c, Min(8096, k - o));
      ps, c, o := qs, c2, o + |result|;
      if |result| == 0 {
        break;
      }
    }
  }

  /** Seeking moves pointers only. */
  lemma {:induction false} SeekLoopShape(ps: seq<PartState>, c: nat, o: nat, k: int)
    requires PosValid(ps) && IndexOk(ps, c)
    ensures var r := SeekLoop(ps, c, o, k); Shape(ps, c, r.0, r.1)
    decreases k - o
  {
    if o < k && !EofSpec(ps, c) {
      var rd := ReadLoop(ps, c, Min(8096, k - o), "", false);
      ReadLoopShape(ps, c, Min(8096, k - o), "", false);
      if |rd.2| > 0 {
        var r := SeekLoop(rd.0, rd.1, o + |rd.2|, k);
        SeekLoopShape(rd.0, rd.1, o + |rd.2|, k);
        ShapeTrans(ps, c, rd.0, rd.1, r.0, r.1);
      }
    }
  }

  /** What `seek` keeps while it reads forward: `tell()` is accurate and the concatenation is
      still `all`, which holds no '0' byte. */
  predicate SeekInv(ps: seq<PartState>, c: nat, o: nat, all: string)
  {
    PosValid(ps) && Tracked(ps, c, o) && Concat(ps) == all && '0' !in all
  }

  /** Where the forward reads of `seek` may stop: `tell()` is still accurate, and it has reached the
      offset or the end of the concatenation. */
  predicate SeekPost(r: (seq<PartState>, nat, nat), k: int, all: string)
  {
    SeekInv(r.0, r.1, r.2, all) && (r.2 >= k || r.2 == |all|)
  }

  /** Seeking keeps `tell()` accurate when the content holds no '0' byte, and stops at the
      offset or at the end of the concatenation. */
  lemma {:induction false} SeekLoopTracked(ps: seq<PartState>, c: nat, o: nat, k: int, all: string)
    requires SeekInv(ps, c, o, all)
    ensures SeekPost(SeekLoop(ps, c, o, k), k, all)
    decreases k - o
  {
    if o >= k {
      assert SeekLoop(ps, c, o, k) == (ps, c, o);
    } else if EofSpec(ps, c) {
      assert SeekLoop(ps, c, o, k) == (ps, c, o);
      TrackedAtEof(ps, c, o);
    } else {
      var ps2, c2, o2 := SeekLoopStep(ps, c, o, k, all);
      if o2 > o {
        SeekLoopTracked(ps2, c2, o2, k, all);
      }
    }
  }

  /** One iteration of the forward reads of `seek`: a read that returns nothing stops them at the
      end of the concatenation; otherwise they go on from the new state, with `tell()` accurate. */
  lemma SeekLoopStep(ps: seq<PartState>, c: nat, o: nat, k: int, all: string)
      returns (ps2: seq<PartState>, c2: nat, o2: nat)
    requires SeekInv(ps, c, o, all) && o < k && !EofSpec(ps, c)
    ensures SeekInv(ps2, c2, o2, all) && IndexOk(ps2, c2) && o <= o2
    ensures o2 == o ==> o == |all| && SeekLoop(ps, c, o, k) == (ps2, c2, o)
    ensures o2 > o ==> SeekLoop(ps, c, o, k) == SeekLoop(ps2, c2, o2, k)
  {
    var rd := ReadLoop(ps, c, Min(8096, k - o), "", false);
    SeekStepTracked(ps, c, o, k, all);
    ps2, c2, o2 := rd.0, rd.1, o + |rd.2|;
  }

  /** One forward read of `seek` keeps `tell()` accurate; a read that returns nothing leaves
      `tell()` at the end of the concatenation. */
  lemma SeekStepTracked(ps: seq<PartState>, c: nat, o: nat, k: int, all: string)
    requires SeekInv(ps, c, o, all) && o < k && !EofSpec(ps, c)
    ensures var rd := ReadLoop(ps, c, Min(8096, k - o), "", false);
      SeekInv(rd.0, rd.1, o + |rd.2|, all) && (|rd.2| == 0 ==> o == |all|)
  {
    var len := Min(8096, k - o);
    var rd := ReadLoop(ps, c, len, "", false);
    TrackedNoZero(ps, c, o);
    ReadLoopShape(ps, c, len, "", false);
    ReadLoopHands(Remaining(ps, c), ps, c, len, "", false);
    TrackedStep(ps, c, o, rd.0, rd.1, rd.2);
    ConcatLayout(rd.0, ps);
    if |rd.2| == 0 {
      TrackedDrained(rd.0, rd.1, o);
    }
  }

  /** Without limits, seeking does not overshoot the offset. */
  lemma {:induction false} SeekLoopBound(ps: seq<PartState>, c: nat, o: nat, k: int)
    requires PosValid(ps) && IndexOk(ps, c) && NoLimit(ps) && o <= Max(k, 0)
    ensures SeekLoop(ps, c, o, k).2 <= Max(k, 0)
    decreases k - o
  {
    if o < k && !EofSpec(ps, c) {
      var rd := ReadLoop(ps, c, Min(8096, k - o), "", false);
      SeekStepBound(ps, c, o, k);
      if |rd.2| > 0 {
        assert SeekLoop(ps, c, o, k) == SeekLoop(rd.0, rd.1, o + |rd.2|, k);
        SeekLoopBound(rd.0, rd.1, o + |rd.2|, k);
      }
    }
  }

  lemma SeekStepBound(ps: seq<PartState>, c: nat, o: nat, k: int)
    requires PosValid(ps) && IndexOk(ps, c) && NoLimit(ps) && o < k && !EofSpec(ps, c)
    ensures var rd := ReadLoop(ps, c, Min(8096, k - o), "", false);
      NoLimit(rd.0) && o + |rd.2| <= k
  {
    var len := Min(8096, k - o);
    var rd := ReadLoop(ps, c, len, "", false);
    ReadLoopBound(ps, c, len, "", false);
    ReadLoopShape(ps, c, len, "", false);
    NoLimitLayout(rd.0, ps);
  }

  /** The loop of `flush()`, as a function: read `bufferSize` bytes at a time until `eof()`,
      appending to `got`. */
  function FlushLoop(ps: seq<PartState>, c: nat, bufferSize: int, got: string): (r: (seq<PartState>, nat, string))
    requires PosValid(ps) && IndexOk(ps, c) && bufferSize > 0 && AllBounded(ps)
    ensures |r.0| == |ps| && PosValid(r.0) && IndexOk(r.0, r.1) && EofSpec(r.0, r.1)
    decreases Measure(ps, c)
  {
    if EofSpec(ps, c) then (ps, c, got)
    else
      var rd := ReadLoop(ps, c, bufferSize, "", false);
      ReadLoopDrains(ps, c, bufferSize);
      ReadLoopShape(ps, c, bufferSize, "", false);
      BoundedLayout(rd.0, ps);
      FlushLoop(rd.0, rd.1, bufferSize, got + rd.2)
  }

  /** The loop of `flush()`, on the parts. */
  method FlushParts(ps0: seq<PartState>, c0: nat, bufferSize: int) returns (ps: seq<PartState>, c: nat, got: string)
    requires PosValid(ps0) && IndexOk(ps0, c0) && bufferSize > 0 && AllBounded(ps0)
    ensures (ps, c, got) == FlushLoop(ps0, c0, bufferSize, "")
  {
    ps, c, got := ps0, c0, "";
    while !EofSpec(ps, c)
      invariant PosValid(ps) && IndexOk(ps, c) && AllBounded(ps)
      invariant FlushLoop(ps, c, bufferSize, got) == FlushLoop(ps0, c0, bufferSize, "")
      decreases Measure(ps, c)
    {
      var ps', c', chunk := ReadParts(ps, c, bufferSize);
      ReadLoopDrains(ps, c, bufferSize);
      ReadLoopShape(ps, c, bufferSize, "", false);
      BoundedLayout(ps', ps);
      ps, c, got := ps', c', got + chunk;
    }
  }

  /** Flushing moves pointers only. */
  lemma {:induction false} FlushLoopShape(ps: seq<PartState>, c: nat, bufferSize: int, got: string)
    requires PosValid(ps) && IndexOk(ps, c) && bufferSize > 0 && AllBounded(ps)
    ensures var r := FlushLoop(ps, c, bufferSize, got); Shape(ps, c, r.0, r.1)
    decreases Measure(ps, c)
  {
    if !EofSpec(ps, c) {
      var rd := ReadLoop(ps, c, bufferSize, "", false);
      ReadLoopDrains(ps, c, bufferSize);
      ReadLoopShape(ps, c, bufferSize, "", false);
      BoundedLayout(rd.0, ps);
      var r := FlushLoop(rd.0, rd.1, bufferSize, got + rd.2);
      FlushLoopShape(rd.0, rd.1, bufferSize, got + rd.2);
      ShapeTrans(ps, c, rd.0, rd.1, r.0, r.1);
    }
  }

  /** Flushing hands out everything the container has left, when none of it is '0'. */
  lemma {:induction false} FlushLoopDrains(ps: seq<PartState>, c: nat, bufferSize: int, got: string)
    requires PosValid(ps) && IndexOk(ps, c) && bufferSize > 0 && AllBounded(ps)
    requires '0' !in Remaining(ps, c)
    ensures var r := FlushLoop(ps, c, bufferSize, got);
      r.2 == got + Remaining(ps, c) && Remaining(r.0, r.1) == ""
    decreases Measure(ps, c)
  {
    if EofSpec(ps, c) {
      EofDrained(ps, c);
    } else {
      var rd := ReadLoop(ps, c, bufferSize, "", false);
      ReadLoopHands(Remaining(ps, c), ps, c, bufferSize, "", false);
      ReadLoopDrains(ps, c, bufferSize);
      ReadLoopShape(ps, c, bufferSize, "", false);
      BoundedLayout(rd.0, ps);
      SuffixNoZero(Remaining(ps, c), rd.2, Remaining(rd.0, rd.1));
      FlushLoopDrains(rd.0, rd.1, bufferSize, got + rd.2);
      AppendAssoc(got, rd.2, Remaining(rd.0, rd.1));
    }
  }

  /** What `read($length)` promises of the parts: pointers move only up to the part it ends on; a
      read of no positive length changes nothing; without limits no more than `length` bytes come
      back; a draining read shrinks the measure. */
  lemma ReadFacts(ps0: seq<PartState>, c0: nat, length: int)
    requires PosValid(ps0) && IndexOk(ps0, c0) && (|ps0| > 0 || length <= 0)
    ensures var r := ReadLoop(ps0, c0, length, "", false);
      Shape(ps0, c0, r.0, r.1) && AllSeekable(r.0) == AllSeekable(ps0)
    ensures length <= 0 ==> ReadLoop(ps0, c0, length, "", false) == (ps0, c0, "")
    ensures NoLimit(ps0) ==> |ReadLoop(ps0, c0, length, "", false).2| <= Max(length, 0)
    ensures var r := ReadLoop(ps0, c0, length, "", false);
      Draining(ps0, c0, length) ==> Measure(r.0, r.1) < Measure(ps0, c0)
  {
    var r := ReadLoop(ps0, c0, length, "", false);
    ReadLoopShape(ps0, c0, length, "", false);
    SeekableLayout(r.0, ps0);
    if NoLimit(ps0) {
      ReadLoopBound(ps0, c0, length, "", false);
    }
    if Draining(ps0, c0, length) {
      ReadLoopDrains(ps0, c0, length);
    }
  }

  /** What `read($length)` hands out, as long as no '0' byte is met: the next bytes the container
      had left, and fewer than asked for only when nothing is left, which from bounded parts means
      `eof()`. */
  lemma ReadContents(ps0: seq<PartState>, c0: nat, length: int)
    requires PosValid(ps0) && IndexOk(ps0, c0) && (|ps0| > 0 || length <= 0)
    requires '0' !in Remaining(ps0, c0)
    ensures var r := ReadLoop(ps0, c0, length, "", false);
      && Remaining(ps0, c0) == r.2 + Remaining(r.0, r.1)
      && (|r.2| < length ==> Remaining(r.0, r.1) == "")
      && (AllBounded(ps0) && |r.2| < length ==> EofSpec(r.0, r.1))
  {
    var r0 := Remaining(ps0, c0);
    assert Gathered(r0, ps0, c0, "", false) by {
      assert "" + r0 == r0;
    }
    ReadLoopHands(r0, ps0, c0, length, "", false);
    if AllBounded(ps0) {
      ReadLoopEof(r0, ps0, c0, length, "", false);
    }
  }

  /** The parts "1" and "0x", with their pointers at `a` and `b`. */
  function ZeroParts(a: nat, b: nat): seq<PartState>
  {
    [PartState("1", a, 0, None, true), PartState("0x", b, 0, None, true)]
  }

  lemma ZeroReadFirst()
    ensures ReadFrom(ZeroParts(0, 0), 0, 2, "") == ReadLoop(ZeroParts(1, 0), 0, 2, "1", false)
  {
    var p := ZeroParts(0, 0)[0];
    assert Chunk(p, ReadLength(p, 2)) == "1" && !Falsy("1") && "" + "1" == "1";
    assert ZeroParts(0, 0)[0 := AfterRead(p, 2)] == ZeroParts(1, 0);
  }

  lemma ZeroReadFalse()
    ensures ReadLoop(ZeroParts(1, 0), 0, 2, "1", false) == (ZeroParts(1, 1), 1, "1")
  {
    var p := ZeroParts(1, 0)[1];
    assert AtEof(ZeroParts(1, 0)[0]);
    assert Chunk(p, ReadLength(p, 1)) == "0" && Falsy("0");
    assert ZeroParts(1, 0)[1 := AfterRead(p, 1)] == ZeroParts(1, 1);
    assert ReadFrom(ZeroParts(1, 0), 1, 2, "1") == ReadLoop(ZeroParts(1, 1), 1, 2, "1", true);
  }

  lemma ZeroReadLast()
    ensures ReadLoop(ZeroParts(1, 1), 1, 1, "", false) == (ZeroParts(1, 2), 1, "x")
  {
    var p := ZeroParts(1, 1)[1];
    assert Chunk(p, ReadLength(p, 1)) == "x" && !Falsy("x") && "" + "x" == "x";
    assert ZeroParts(1, 1)[1 := AfterRead(p, 1)] == ZeroParts(1, 2);
    assert ReadFrom(ZeroParts(1, 1), 1, 1, "") == ReadLoop(ZeroParts(1, 2), 1, 1, "x", false);
  }

  /** Without the '0' condition a read can come back short before the end: over parts "1" and
      "0x", `read(2)` returns "1" and drops the false chunk "0", while "x" is still left and the
      container is not at `eof()`. */
  lemma ReadSkipsZeroChunk()
    ensures var r := ReadLoop(ZeroParts(0, 0), 0, 2, "", false);
      && r.2 == "1" && Remaining(r.0, r.1) == "x" && !EofSpec(r.0, r.1)
  {
    ZeroReadFirst();
    ZeroReadFalse();
    var q := ZeroParts(1, 1);
    assert ReadFrom(ZeroParts(0, 0), 0, 2, "") == ReadLoop(ZeroParts(1, 0), 0, 2, "1", false);
    assert Remaining(q, 1) == Rest(q[1]) + Rests(q[2..]);
    assert Rest(q[1]) == "0x"[1..2];
  }

  /** Without the '0' condition `tell()` can fall behind the content: over parts "1" and "0x",
      `seek(2)` reads "1", drops the false chunk "0" and moves on, then reads "x". It ends with
      `tell()` at 2 and nothing left, although the content from offset 2 is "x". */
  lemma SeekSkipsZeroChunk()
    ensures var r := SeekLoop(RewindAll(ZeroParts(0, 0)), 0, 0, 2);
      && Concat(ZeroParts(0, 0)) == "10x" && Concat(ZeroParts(0, 0))[2..] == "x"
      && r.2 == 2 && Remaining(r.0, r.1) == ""
  {
    var ps := ZeroParts(0, 0);
    assert RewindAll(ps) == ps;
    ZeroReadFirst();
    ZeroReadFalse();
    assert ReadLoop(ps, 0, 2, "", false) == (ZeroParts(1, 1), 1, "1");
    assert SeekLoop(ps, 0, 0, 2) == SeekLoop(ZeroParts(1, 1), 1, 1, 2);
    ZeroReadLast();
    assert SeekLoop(ZeroParts(1, 1), 1, 1, 2) == SeekLoop(ZeroParts(1, 2), 1, 2, 2);
    ZeroContent();
  }

  lemma ZeroContent()
    ensures Concat(ZeroParts(0, 0)) == "10x" && Concat(ZeroParts(0, 0))[2..] == "x"
    ensures Remaining(ZeroParts(1, 2), 1) == ""
  {
    var ps := ZeroParts(0, 0);
    var q := ZeroParts(1, 2);
    assert Remaining(q, 1) == Rest(q[1]) + Rests(q[2..]);
    assert View(ps[0]) == "1" && View(ps[1]) == "0x";
    assert Concat(ps) == View(ps[0]) + (View(ps[1]) + Concat(ps[2..]));
  }

  /** What `seek($offset)` promises once its checks pass: pointers move only; a target that is not
      positive leaves every part rewound; with no '0' byte in the content, `tell()` is accurate
      and has reached the target or the end; without limits it does not overshoot, so a target
      within the content is reached exactly. */
  lemma SeekFacts(ps0: seq<PartState>, k: int)
    requires PosValid(ps0)
    ensures var r := SeekLoop(RewindAll(ps0), 0, 0, k);
      SameLayout(r.0, ps0) && AllSeekable(r.0) == AllSeekable(ps0)
    ensures k <= 0 ==> SeekLoop(RewindAll(ps0), 0, 0, k) == (RewindAll(ps0), 0, 0)
    ensures var r := SeekLoop(RewindAll(ps0), 0, 0, k);
      '0' !in Concat(ps0) ==> Tracked(r.0, r.1, r.2) && (r.2 >= k || r.2 == |Concat(ps0)|)
    ensures NoLimit(ps0) ==> SeekLoop(RewindAll(ps0), 0, 0, k).2 <= Max(k, 0)
    ensures var r := SeekLoop(RewindAll(ps0), 0, 0, k);
      NoLimit(ps0) && '0' !in Concat(ps0) && 0 <= k <= |Concat(ps0)| ==>
        r.2 == k && Remaining(r.0, r.1) == Concat(ps0)[k..]
  {
    var psR := RewindAll(ps0);
    var r := SeekLoop(psR, 0, 0, k);
    RewoundAll(ps0, psR);
    SeekLoopShape(psR, 0, 0, k);
    SameLayoutTrans(r.0, psR, ps0);
    ConcatLayout(psR, ps0);
    SeekableLayout(r.0, ps0);
    if '0' !in Concat(ps0) {
      SeekLoopTracked(psR, 0, 0, k, Concat(ps0));
    }
    if NoLimit(ps0) {
      NoLimitLayout(psR, ps0);
      SeekLoopBound(psR, 0, 0, k);
    }
  }

  /** What `flush()` promises: pointers move only, `eof()` holds afterwards, and what comes back
      is everything the container had left, as long as none of it is '0'. */
  lemma FlushFacts(ps0: seq<PartState>, c0: nat, bufferSize: int)
    requires PosValid(ps0) && IndexOk(ps0, c0) && bufferSize > 0 && AllBounded(ps0)
    ensures var r := FlushLoop(ps0, c0, bufferSize, "");
      SameLayout(r.0, ps0) && AllSeekable(r.0) == AllSeekable(ps0) && EofSpec(r.0, r.1)
    ensures var r := FlushLoop(ps0, c0, bufferSize, "");
      '0' !in Remaining(ps0, c0) ==> r.2 == Remaining(ps0, c0) && Remaining(r.0, r.1) == ""
  {
    var r := FlushLoop(ps0, c0, bufferSize, "");
    FlushLoopShape(ps0, c0, bufferSize, "");
    SeekableLayout(r.0, ps0);
    if '0' !in Remaining(ps0, c0) {
      FlushLoopDrains(ps0, c0, bufferSize, "");
    }
  }

  // ---------------------------------------------------------------------------------------------
  // The container
  // ---------------------------------------------------------------------------------------------

  /** What `add` accepts: raw data, wrapped in a new in-memory stream, or an existing stream. */
  datatype Payload = Data(bytes: string) | Existing(stream: Stream)

  /** The state of the stream `new Stream(['data' => $data])` creates. */
  function FreshPart(data: string): PartState
  {
    PartState(if Falsy(data) then "" else data, 0, 0, None, true)
  }

  /** `$stream->length()` of a part. */
  function PartLength(p: PartState): Option<int>
  {
    if p.seekable then Some(SizeOf(p)) else None
  }

  /** `$stream->rewind()` of a part. */
  function Rewound(p: PartState): (q: PartState)
    ensures q.pos == Lo(q) && SameLayout([q], [p])
  {
    p.(pos := Lo(p))
  }

  class MultiStream {
    const bufferSize: int
    const keepLast: bool
    var parts: seq<PartState>
    var seekable: bool
    var current: nat
    var offset: nat

    ghost predicate Valid()
      reads this
    {
      PosValid(parts) && IndexOk(parts, current) && (seekable ==> AllSeekable(parts))
    }

    /** An empty container; `keepLast` keeps the last part last when parts are added. */
    constructor (bufferSize: int, keepLast: bool)
      ensures Valid() && this.bufferSize == bufferSize && this.keepLast == keepLast
      ensures parts == [] && seekable && current == 0 && offset == 0
      ensures Tracked(parts, current, offset)
    {
      this.bufferSize := bufferSize;
      this.keepLast := keepLast;
      parts := [];
      seekable := true;
      current := 0;
      offset := 0;
    }

    function IsReadable(): (r: bool)
      ensures r
    {
      true
    }

    function IsWritable(): (r: bool)
      ensures !r
    {
      false
    }

    function IsSeekable(): (r: bool)
      reads this
      requires Valid()
      ensures r ==> AllSeekable(parts)
    {
      seekable
    }

    function Mime(): (r: Result<string>)
      ensures r.Failure?
    {
      Failure(PhpException("Can't set or get a mime to `MultiStream`."))
    }

    /** `meta($key)`: null for a key, an empty array otherwise. */
    function Meta(key: Option<string>): (r: Option<map<string, string>>)
      ensures r.None? <==> key.Some? && !Falsy(key.value)
      ensures r.Some? ==> r.value == map[]
    {
      if key.Some? && !Falsy(key.value) then None else Some(map[])
    }

    /** `tell()`: the bytes returned so far; when accurate, the position in the concatenation
        from which the rest is still to come. */
    function Tell(): (r: nat)
      reads this
      ensures Tracked(parts, current, offset) ==>
        r <= |Concat(parts)| && Concat(parts)[r..] == Remaining(parts, current)
    {
      offset
    }

    function Write(data: string): (r: Result<nat>)
      ensures r.Failure?
    {
      Failure(RuntimeException("`MultiStream` instances are not writable."))
    }

    /** `eof()`: no parts, or the current part is the last one and at its end; then nothing is
        left to read. */
    function Eof(): (r: bool)
      reads this
      requires Valid()
      ensures r <==> EofSpec(parts, current)
      ensures r ==> Remaining(parts, current) == ""
    {
      var e := |parts| == 0 || (current >= |parts| - 1 && AtEof(parts[current]));
      if e then EofDrained(parts, current); e else e
    }

    /** `add($stream)`: wraps raw data in a stream, refuses a part that cannot be read, clears the
        seekable flag for a part that cannot seek, and inserts the part. */
    method Add(p: Payload) returns (r: Result<()>)
      requires Valid()
      requires p.Existing? ==> p.stream.Valid()
      modifies this`parts, this`seekable
      ensures Valid()
      ensures r.Success? <==> p.Data? || (p.stream.open && p.stream.readable)
      ensures p.Existing? && !p.stream.open ==> r == Failure(TypeError)
      ensures p.Existing? && p.stream.open && !p.stream.readable ==>
        r == Failure(InvalidArgumentException("Can't appends a non readable stream."))
      ensures r.Failure? ==> parts == old(parts) && seekable == old(seekable)
      ensures r.Success? && p.Data? ==>
        parts == Insert(old(parts), FreshPart(p.bytes), keepLast) && seekable == old(seekable)
      ensures r.Success? && p.Existing? ==>
        && parts == Insert(old(parts), p.stream.State(), keepLast)
        && seekable == (old(seekable) && p.stream.seekable)
      ensures (&& r.Success? && old(InsertBehind(parts, current, offset, keepLast))
               && (p.Existing? ==> p.stream.pos == Lo(p.stream.State()))) ==>
        Tracked(parts, current, offset)
    {
      var s: Stream;
      if p.Data? {
        s := new Stream(p.bytes, NoMime, "", 0, None, 4096);
      } else {
        s := p.stream;
      }
      var readable := s.IsReadable();
      if readable.Failure? {
        return Failure(readable.error);
      }
      if !readable.value {
        return Failure(InvalidArgumentException("Can't appends a non readable stream."));
      }
      if !s.seekable {
        seekable := false;
      }
      var q := s.State();
      InsertFacts(parts, q, keepLast, current, offset);
      parts := Insert(parts, q, keepLast);
      r := Success(());
    }

    /** `read($length)`: fills the request from the current part on, moving to the next part when
        the current one is at its end or returns a false chunk ("" or "0"); `tell()` grows by the
        number of bytes returned. */
    method Read(length: int) returns (r: string)
      requires Valid()
      requires |parts| > 0 || length <= 0
      modifies this`parts, this`current, this`offset
      ensures (parts, current, r) == ReadLoop(old(parts), old(current), length, "", false)
      ensures Valid() && Shape(old(parts), old(current), parts, current)
      ensures offset == old(offset) + |r|
      ensures length <= 0 ==> r == "" && parts == old(parts) && current == old(current)
      ensures NoLimit(old(parts)) ==> |r| <= Max(length, 0)
      ensures '0' !in old(Remaining(parts, current)) ==>
        && old(Remaining(parts, current)) == r + Remaining(parts, current)
        && (|r| < length ==> Remaining(parts, current) == "")
      ensures AllBounded(old(parts)) && '0' !in old(Remaining(parts, current)) && |r| < length ==>
        EofSpec(parts, current)
      ensures Draining(old(parts), old(current), length) ==>
        Measure(parts, current) < Measure(old(parts), old(current))
    {
      ReadFacts(parts, current, length);
      if '0' !in Remaining(parts, current) {
        ReadContents(parts, current, length);
      }
      var ps, c, got := ReadParts(parts, current, length);
      parts, current := ps, c;
      offset := offset + |got|;
      r := got;
    }

    /** `seek($offset)`: only for a seekable container and `SEEK_SET`; rewinds every part, then
        reads forward until the offset is reached or the content ends. Without limits on the
        parts, seeking to an offset within the content makes `tell()` that offset. */
    method Seek(k: int, whence: Whence) returns (r: Result<()>)
      requires Valid()
      modifies this`parts, this`current, this`offset
      ensures Valid() && SameLayout(parts, old(parts))
      ensures !old(seekable) ==> r == Failure(RuntimeException("`MultiStream` instances are not seekable."))
      ensures old(seekable) && whence != SeekSet ==>
        r == Failure(RuntimeException("`MultiStream` instances can only seek with SEEK_SET."))
      ensures r.Failure? ==> parts == old(parts) && current == old(current) && offset == old(offset)
      ensures r.Success? <==> old(seekable) && whence == SeekSet
      ensures r.Success? ==> (parts, current, offset) == SeekLoop(RewindAll(old(parts)), 0, 0, k)
      ensures r.Success? && k <= 0 ==> parts == RewindAll(old(parts)) && current == 0 && offset == 0
      ensures r.Success? && '0' !in Concat(old(parts)) ==>
        && Tracked(parts, current, offset)
        && (offset >= k || offset == |Concat(old(parts))|)
      ensures r.Success? && NoLimit(old(parts)) ==> offset <= Max(k, 0)
      ensures r.Success? && NoLimit(old(parts)) && '0' !in Concat(old(parts)) && 0 <= k <= |Concat(old(parts))| ==>
        offset == k && Remaining(parts, current) == Concat(old(parts))[k..]
    {
      if !seekable {
        return Failure(RuntimeException("`MultiStream` instances are not seekable."));
      }
      if whence != SeekSet {
        return Failure(RuntimeException("`MultiStream` instances can only seek with SEEK_SET."));
      }
      SeekFacts(parts, k);
      var ps, c, o := SeekParts(parts, k);
      parts, current, offset := ps, c, o;
      r := Success(());
    }

    /** `rewind()`: `seek(0)`. */
    method Rewind() returns (r: Result<()>)
      requires Valid()
      modifies this`parts, this`current, this`offset
      ensures Valid() && SameLayout(parts, old(parts))
      ensures r.Success? <==> old(seekable)
      ensures r.Failure? ==> parts == old(parts) && current == old(current) && offset == old(offset)
      ensures r.Success? ==>
        && current == 0 && offset == 0 && Tracked(parts, current, offset)
        && Remaining(parts, current) == Concat(old(parts))
    {
      ghost var ps0 := parts;
      r := Seek(0, SeekSet);
      if r.Success? {
        RewoundAll(ps0, parts);
      }
    }

    /** `length()`: null as soon as a part has no length, else the sum of the parts' lengths. */
    method Length() returns (r: Option<int>)
      requires Valid()
      ensures r == LengthSum(parts)
      ensures AllOrdered(parts) ==>
        (r.Some? <==> AllSeekable(parts)) && (r.Some? ==> r.value == |Concat(parts)|)
    {
      var length := 0;
      var i := 0;
      while i < |parts|
        invariant 0 <= i <= |parts|
        invariant AllSeekable(parts[..i]) && length == SizeSum(parts[..i])
      {
        var len := PartLength(parts[i]);
        if len.None? {
          return None;
        }
        SizeSumSnoc(parts, i);
        assert AllSeekable(parts[..i + 1]) by {
          assert forall j :: 0 <= j < i + 1 ==> parts[..i + 1][j] == parts[j];
        }
        length := length + len.value;
        i := i + 1;
      }
      assert parts[..i] == parts;
      r := Some(length);
      if AllOrdered(parts) && AllSeekable(parts) {
        LengthIsConcatLength(parts);
      }
    }

    /** `flush()`: reads `bufferSize` bytes at a time until `eof()`, returning what was left. */
    method Flush() returns (r: string)
      requires Valid() && bufferSize > 0 && AllBounded(parts)
      modifies this`parts, this`current, this`offset
      ensures (parts, current, r) == FlushLoop(old(parts), old(current), bufferSize, "")
      ensures Valid() && SameLayout(parts, old(parts)) && EofSpec(parts, current)
      ensures offset == old(offset) + |r|
      ensures '0' !in old(Remaining(parts, current)) ==>
        r == old(Remaining(parts, current)) && Remaining(parts, current) == ""
    {
      FlushFacts(parts, current, bufferSize);
      var ps, c, got := FlushParts(parts, current, bufferSize);
      parts, current := ps, c;
      offset := offset + |got|;
      r := got;
    }

    /** `toString()`: the whole content for a seekable container (rewound first), what is left
        otherwise. */
    method ToString() returns (r: string)
      requires Valid() && bufferSize > 0 && AllBounded(parts)
      modifies this`parts, this`current, this`offset
      ensures Valid() && SameLayout(parts, old(parts)) && EofSpec(parts, current)
      ensures old(seekable) && '0' !in Concat(old(parts)) ==> r == Concat(old(parts))
      ensures !old(seekable) && '0' !in old(Remaining(parts, current)) ==>
        r == old(Remaining(parts, current))
    {
      if !seekable {
        r := Flush();
        return;
      }
      ghost var ps0 := parts;
      var rewound := Rewind();
      LayoutFacts(parts, ps0);
      r := Flush();
    }

    /** `detach()`: forgets every part and resets the cursor and the seekable flag. */
    method Detach()
      modifies this`parts, this`current, this`offset, this`seekable
      ensures Valid() && parts == [] && current == 0 && offset == 0 && seekable
      ensures Tracked(parts, current, offset) && EofSpec(parts, current)
    {
      offset := 0;
      current := 0;
      seekable := true;
      parts := [];
    }

    /** `close()`: resets the cursor and the seekable flag and forgets every part; the parts are
        held here as values, so closing them leaves nothing else behind. */
    method Close()
      modifies this`parts, this`current, this`offset, this`seekable
      ensures Valid() && parts == [] && current == 0 && offset == 0 && seekable
      ensures Tracked(parts, current, offset) && EofSpec(parts, current)
    {
      offset := 0;
      current := 0;
      seekable := true;
      parts := [];
    }
  }

  /** The content of three fresh parts "foo", "bar", "baz". */
  lemma ThreeParts(ps: seq<PartState>)
    requires ps == [FreshPart("foo"), FreshPart("bar"), FreshPart("baz")]
    ensures Concat(ps) == Remaining(ps, 0) == "foo" + ("bar" + ("baz" + ""))
    ensures NoLimit(ps) && PosValid(ps)
  {
    assert View(ps[0]) == Rest(ps[0]) == "foo";
    assert View(ps[1]) == Rest(ps[1]) == "bar";
    assert View(ps[2]) == Rest(ps[2]) == "baz";
    var t := ps[2..];
    assert t[0] == ps[2] && t[1..] == [];
    assert Concat(t) == Rests(t) == "baz" + "";
    var u := ps[1..];
    assert u[0] == ps[1] && u[1..] == t;
    assert Concat(u) == Rests(u) == "bar" + ("baz" + "");
    assert ps[1..] == u && ps[0..] == ps;
  }

  lemma FooBarBaz()
    ensures "foo" + ("bar" + ("baz" + "")) == "foobarbaz"
  {
  }

  /** A read that hands out the next bytes, no more than `|x|` of them, and fewer only when
      nothing is left, returns `x` when `x` is what comes first. */
  lemma ReadPrefix(x: string, y: string, r: string, after: string)
    requires x + y == r + after && |r| <= |x| && (|r| < |x| ==> after == "")
    ensures r == x && after == y
  {
    assert (x + y)[..|x|] == x && (r + after)[..|r|] == r;
  }

  /** A seekable container over parts without limits whose content `all` holds no '0' byte, with
      `rest` still to give. */
  ghost predicate Ready(m: MultiStream, rest: string, all: string)
    reads m
  {
    && m.Valid() && m.seekable && m.bufferSize > 0 && NoLimit(m.parts) && |m.parts| > 0
    && Remaining(m.parts, m.current) == rest && Concat(m.parts) == all && '0' !in all && '0' !in rest
  }

  /** A read of `n` bytes, when `x` of that length comes next, returns `x`. */
  method ReadStep(m: MultiStream, n: nat, ghost x: string, ghost y: string, ghost all: string) returns (r: string)
    requires Ready(m, x + y, all) && n == |x|
    modifies m`parts, m`current, m`offset
    ensures Ready(m, y, all) && m.offset == old(m.offset) + n
    ensures r == x
  {
    ghost var ps0 := m.parts;
    r := m.Read(n);
    ReadPrefix(x, y, r, Remaining(m.parts, m.current));
    NoLimitLayout(m.parts, ps0);
    ConcatLayout(m.parts, ps0);
    assert '0' !in y by {
      assert forall i :: 0 <= i < |y| ==> y[i] == (x + y)[|x| + i];
    }
  }

  /** Once nothing is left, a read returns nothing and `eof()` holds; `toString()` of a seekable
      container then still gives its whole content. */
  method ReadAtEnd(m: MultiStream, ghost all: string) returns (r: string, eof: bool, told: nat, whole: string)
    requires Ready(m, "", all)
    modifies m`parts, m`current, m`offset
    ensures r == "" && eof && told == old(m.offset) && whole == all
  {
    ghost var ps0 := m.parts;
    r := m.Read(1);
    eof := m.Eof();
    told := m.Tell();
    ConcatLayout(m.parts, ps0);
    NoLimitLayout(m.parts, ps0);
    whole := m.ToString();
  }

  /** A container holding parts "foo", "bar" and "baz", not yet at `eof()`. */
  method AddThreeParts() returns (m: MultiStream, eof: bool)
    ensures fresh(m) && m.offset == 0
    ensures Ready(m, "foo" + ("bar" + ("baz" + "")), "foo" + ("bar" + ("baz" + "")))
    ensures !eof
  {
    m := new MultiStream(4096, false);
    var added := m.Add(Data("foo"));
    assert m.parts == [FreshPart("foo")];
    added := m.Add(Data("bar"));
    assert m.parts == [FreshPart("foo"), FreshPart("bar")];
    added := m.Add(Data("baz"));
    assert m.parts == [FreshPart("foo"), FreshPart("bar"), FreshPart("baz")];
    ThreeParts(m.parts);
    eof := m.Eof();
  }

  /** Parts "foo", "bar" and "baz" read three bytes at a time come back one by one; a further read
      returns nothing, `eof()` then holds, `tell()` is 9, and `toString()` gives the whole content. */
  method ReadThreeParts() returns (chunks: seq<string>, eofBefore: bool, eofAfter: bool, told: nat, whole: string)
    ensures chunks == ["foo", "bar", "baz", ""]
    ensures !eofBefore && eofAfter && told == 9 && whole == "foobarbaz"
  {
    ghost var all := "foo" + ("bar" + ("baz" + ""));
    var m;
    m, eofBefore := AddThreeParts();
    var a := ReadStep(m, 3, "foo", "bar" + ("baz" + ""), all);
    var b := ReadStep(m, 3, "bar", "baz" + "", all);
    var c := ReadStep(m, 3, "baz", "", all);
    var d;
    d, eofAfter, told, whole := ReadAtEnd(m, all);
    chunks := [a, b, c, d];
    FooBarBaz();
  }
}

=== FILE: multipart_stream.dfy ===
/**
 * `MultipartStream` of src/MultipartStream.php: a multipart body built on a `MultiStream`, following
 * the delimiter syntax of section 5.1.1 of RFC 2046 and the `Content-Disposition: form-data`
 * convention of section 4.2 of RFC 7578.
 *
 * Every field becomes four parts: the delimiter line `--B` CR LF, a header block, the payload and a
 * CR LF. The constructor adds the close delimiter `--B--` CR LF as the first part; when the container
 * keeps its last part last, fields go in front of it.
 *
 * The PHP class extends `MultiStream`; here it holds its container as `body`, so the inherited
 * operations (read, seek, flush, ...) are those of `body`.
 */
module Multipart {
  import opened Wrappers
  import opened Text
  import opened Streams
  import opened MultiStreams

  // ---------------------------------------------------------------------------------------------
  // Framing text
  // ---------------------------------------------------------------------------------------------

  const Crlf: string := "\r\n"

  /** The delimiter line that opens a body part. */
  function OpenDelimiter(boundary: string): string
  {
    "--" + boundary + Crlf
  }

  /** The close delimiter that ends the body. */
  function CloseDelimiter(boundary: string): string
  {
    "--" + boundary + "--" + Crlf
  }

  /** The options of `add`: an absent key is `None`. */
  datatype FieldOptions = FieldOptions(
    name: Option<string>,
    filename: Option<string>,
    length: Option<int>,
    disposition: Option<string>)

  /** `key="value"`, as the disposition parameters are written. */
  function Param(key: string, value: string): string
  {
    key + "=\"" + value + "\""
  }

  /** The disposition type and its parameters: `name`, then `filename` when given. */
  function DispositionParts(o: FieldOptions, name: string): seq<string>
  {
    [o.disposition.GetOr("form-data"), Param("name", name)]
      + (if o.filename.Some? then [Param("filename", o.filename.value)] else [])
  }

  /** The length announced for the payload: the `length` option, else the stream's own length. */
  function ResolvedLength(o: FieldOptions, streamLength: Option<int>): Option<int>
  {
    if o.length.Some? then o.length else streamLength
  }

  /** PHP truthiness of the resolved length: null and 0 are false. */
  predicate Truthy(length: Option<int>)
  {
    length.Some? && length.value != 0
  }

  /** The header lines of a field, in the order the PHP code appends them. */
  function HeaderLines(o: FieldOptions, name: string, mime: string, length: Option<int>): seq<string>
  {
    ["Content-Disposition: " + JoinWith("; ", DispositionParts(o, name)), "Content-Type: " + mime]
      + (if Truthy(length) then ["Content-Length: " + IntToString(length.value)] else [])
  }

  /** The header part of a field: the lines separated by CR LF, then the blank line. */
  function HeaderBlock(lines: seq<string>): string
  {
    JoinWith(Crlf, lines) + Crlf + Crlf
  }

  /** What one field contributes to the body: delimiter line, headers, payload and CR LF. */
  function Frame(boundary: string, lines: seq<string>, payload: string): string
  {
    OpenDelimiter(boundary) + HeaderBlock(lines) + payload + Crlf
  }

  /** The body: the fields then the close delimiter when it is kept last, else the close delimiter
      (added first by the constructor) followed by the fields. */
  function Layout(boundary: string, frames: seq<string>, keepLast: bool): string
  {
    if keepLast then Join(frames) + CloseDelimiter(boundary) else CloseDelimiter(boundary) + Join(frames)
  }

  // ---------------------------------------------------------------------------------------------
  // Reading a body part back, as a receiver of the message does
  // ---------------------------------------------------------------------------------------------

  /** Splits off the text up to the first CR LF: the line and what follows it. */
  function ReadLine(s: string): (r: Option<(string, string)>)
    ensures r.Some? ==> |r.value.0| + 2 + |r.value.1| == |s|
    decreases |s|
  {
    if |s| < 2 then None
    else if s[0] == '\r' && s[1] == '\n' then Some(("", s[2..]))
    else
      match ReadLine(s[1..])
      case None => None
      case Some((line, rest)) => Some(([s[0]] + line, rest))
  }

  /** Reads header lines up to the blank line that ends them: the lines and the text after the
      blank line. */
  function ReadHeaders(s: string): (r: Option<(seq<string>, string)>)
    decreases |s|
  {
    match ReadLine(s)
    case None => None
    case Some((line, rest)) =>
      if |line| == 0 then Some(([], rest))
      else
        match ReadHeaders(rest)
        case None => None
        case Some((lines, body)) => Some(([line] + lines, body))
  }

  /** A line with no CR in it. */
  predicate Clean(line: string)
  {
    '\r' !in line
  }

  /** Header lines a reader can recover: none is empty or holds a CR. */
  predicate CleanLines(lines: seq<string>)
  {
    forall i :: 0 <= i < |lines| ==> |lines[i]| > 0 && Clean(lines[i])
  }

  /** A line without CR, followed by CR LF, is read back whole. */
  lemma {:induction false} ReadLineOf(line: string, rest: string)
    requires Clean(line)
    ensures ReadLine(line + Crlf + rest) == Some((line, rest))
    decreases |line|
  {
    var s := line + Crlf + rest;
    if |line| == 0 {
      assert s == Crlf + rest;
      assert s[2..] == rest;
    } else {
      assert s[0] == line[0] != '\r';
      assert s[1..] == line[1..] + Crlf + rest;
      assert Clean(line[1..]) by {
        assert forall i :: 0 <= i < |line[1..]| ==> line[1..][i] == line[i + 1];
      }
      ReadLineOf(line[1..], rest);
      assert [s[0]] + line[1..] == line;
    }
  }

  /** A header block is read back into its lines, and what follows it is left over. */
  lemma {:induction false} ReadHeaderBlock(lines: seq<string>, rest: string)
    requires |lines| > 0 && CleanLines(lines)
    ensures ReadHeaders(HeaderBlock(lines) + rest) == Some((lines, rest))
    decreases |lines|
  {
    var a := lines[0];
    var tail := lines[1..];
    assert lines == [a] + tail;
    ReadLineOf("", rest);
    if |tail| == 0 {
      assert JoinWith(Crlf, lines) == a;
      assert HeaderBlock(lines) + rest == a + Crlf + (Crlf + rest);
      ReadLineOf(a, Crlf + rest);
      assert "" + Crlf + rest == Crlf + rest;
    } else {
      JoinWithCons(Crlf, a, tail);
      assert HeaderBlock(lines) + rest == a + Crlf + (HeaderBlock(tail) + rest);
      ReadLineOf(a, HeaderBlock(tail) + rest);
      assert CleanLines(tail) by {
        assert forall i :: 0 <= i < |tail| ==> tail[i] == lines[i + 1];
      }
      ReadHeaderBlock(tail, rest);
    }
  }

  /** The header lines of a field are never empty, and carry no CR when the name, the file name,
      the disposition and the mime carry none. */
  lemma HeaderLinesClean(o: FieldOptions, name: string, mime: string, length: Option<int>)
    requires Clean(name) && Clean(mime) && Clean(o.disposition.GetOr("form-data"))
    requires o.filename.Some? ==> Clean(o.filename.value)
    ensures CleanLines(HeaderLines(o, name, mime, length))
  {
    var ps := DispositionParts(o, name);
    forall i | 0 <= i < |ps|
      ensures Clean(ps[i])
    {
    }
    JoinWithClean("; ", ps);
    if Truthy(length) {
      IntToStringClean(length.value);
    }
  }

  lemma {:induction false} JoinWithClean(sep: string, ss: seq<string>)
    requires Clean(sep) && forall i :: 0 <= i < |ss| ==> Clean(ss[i])
    ensures Clean(JoinWith(sep, ss))
    decreases |ss|
  {
    if |ss| > 1 {
      JoinWithClean(sep, ss[..|ss| - 1]);
    }
  }

  lemma IntToStringClean(i: int)
    ensures Clean(IntToString(i))
  {
    var n: nat := if i < 0 then -i else i;
    NatToStringIsNumeral(n);
  }

  /** A field reads back from its frame: the delimiter line, then the header lines in their order
      (Content-Disposition, Content-Type, and Content-Length exactly when the resolved length is
      truthy), then the payload followed by the CR LF that ends it. */
  lemma FrameReadsBack(boundary: string, o: FieldOptions, name: string, mime: string,
                       length: Option<int>, payload: string)
    requires Clean(boundary) && Clean(name) && Clean(mime) && Clean(o.disposition.GetOr("form-data"))
    requires o.filename.Some? ==> Clean(o.filename.value)
    ensures var lines := HeaderLines(o, name, mime, length);
      && ReadLine(Frame(boundary, lines, payload))
         == Some(("--" + boundary, HeaderBlock(lines) + payload + Crlf))
      && ReadHeaders(HeaderBlock(lines) + payload + Crlf) == Some((lines, payload + Crlf))
      && |lines| == (if Truthy(length) then 3 else 2)
      && lines[0] == "Content-Disposition: " + JoinWith("; ", DispositionParts(o, name))
      && lines[1] == "Content-Type: " + mime
      && (Truthy(length) ==> lines[2] == "Content-Length: " + IntToString(length.value))
  {
    var lines := HeaderLines(o, name, mime, length);
    HeaderLinesClean(o, name, mime, length);
    var rest := HeaderBlock(lines) + payload + Crlf;
    assert Frame(boundary, lines, payload) == ("--" + boundary) + Crlf + rest;
    assert Clean("--" + boundary);
    ReadLineOf("--" + boundary, rest);
    ReadHeaderBlock(lines, payload + Crlf);
    assert HeaderBlock(lines) + (payload + Crlf) == rest;
  }

  /** The disposition line lists the disposition type (`form-data` unless given), the name, and
      the file name when one is given, separated by "; ". */
  lemma DispositionLine(o: FieldOptions, name: string)
    ensures var d := o.disposition.GetOr("form-data");
      && (o.filename.None? ==>
            JoinWith("; ", DispositionParts(o, name)) == d + "; " + Param("name", name))
      && (o.filename.Some? ==>
            JoinWith("; ", DispositionParts(o, name))
              == d + "; " + Param("name", name) + "; " + Param("filename", o.filename.value))
  {
    var d := o.disposition.GetOr("form-data");
    if o.filename.Some? {
      assert DispositionParts(o, name) == [d, Param("name", name), Param("filename", o.filename.value)];
      JoinWithTriple("; ", d, Param("name", name), Param("filename", o.filename.value));
    } else {
      assert DispositionParts(o, name) == [d, Param("name", name)];
      JoinWithPair("; ", d, Param("name", name));
    }
  }

  // ---------------------------------------------------------------------------------------------
  // Parts added to the container
  // ---------------------------------------------------------------------------------------------

  /** The bytes a field's parts contribute, leaving out the close delimiter when it is kept last. */
  function Fields(ps: seq<PartState>, keepLast: bool): string
  {
    if keepLast && |ps| > 0 then Concat(ps[..|ps| - 1]) else Concat(ps)
  }

  /** Adding a part extends the fields by its view and, in keep-last mode, leaves the last part in
      place. */
  lemma FieldsInsert(ps: seq<PartState>, q: PartState, keepLast: bool)
    requires keepLast ==> |ps| > 0
    ensures Fields(Insert(ps, q, keepLast), keepLast) == Fields(ps, keepLast) + View(q)
    ensures |Insert(ps, q, keepLast)| == |ps| + 1
    ensures keepLast && |ps| > 0 ==> Insert(ps, q, keepLast)[|ps|] == ps[|ps| - 1]
  {
    var r := Insert(ps, q, keepLast);
    if keepLast && |ps| > 0 {
      var init := ps[..|ps| - 1];
      assert r[..|r| - 1] == init + [q];
      ConcatSnoc(init, q);
    } else {
      ConcatSnoc(ps, q);
    }
  }

  /** A stream over a non-false string shows that string. */
  lemma FreshView(s: string)
    requires !Falsy(s)
    ensures View(FreshPart(s)) == s
  {
    assert s[0..|s|] == s;
  }

  /** The parts hold the given frames, with the close delimiter where the container keeps it:
      last in keep-last mode, else first. */
  predicate FramedParts(ps: seq<PartState>, boundary: string, frames: seq<string>, keepLast: bool)
  {
    && Fields(ps, keepLast) == (if keepLast then "" else CloseDelimiter(boundary)) + Join(frames)
    && (keepLast ==> |ps| > 0 && View(ps[|ps| - 1]) == CloseDelimiter(boundary))
  }

  /** Framed parts concatenate to the body. */
  lemma LayoutOf(ps: seq<PartState>, boundary: string, frames: seq<string>, keepLast: bool)
    requires FramedParts(ps, boundary, frames, keepLast)
    ensures Concat(ps) == Layout(boundary, frames, keepLast)
  {
    if keepLast {
      ConcatLast(ps);
      DropEmpty(Concat(ps), Concat(ps[..|ps| - 1]), View(ps[|ps| - 1]), Join(frames));
    }
  }

  lemma ConcatLast(ps: seq<PartState>)
    requires |ps| > 0
    ensures Concat(ps) == Concat(ps[..|ps| - 1]) + View(ps[|ps| - 1])
  {
    var init := ps[..|ps| - 1];
    var last := ps[|ps| - 1];
    assert ps == init + [last];
    ConcatSnoc(init, last);
  }

  lemma DropEmpty(whole: string, front: string, back: string, joined: string)
    requires whole == front + back && front == "" + joined
    ensures whole == joined + back
  {
  }

  /** The four parts `add` inserts for a field: delimiter line, header block, payload, CR LF. */
  function FieldParts(ps: seq<PartState>, boundary: string, lines: seq<string>, q: PartState,
                      keepLast: bool): seq<PartState>
  {
    var withHeaders := Insert(Insert(ps, FreshPart(OpenDelimiter(boundary)), keepLast),
                              FreshPart(HeaderBlock(lines)), keepLast);
    Insert(Insert(withHeaders, q, keepLast), FreshPart(Crlf), keepLast)
  }

  lemma RegroupFrame(x: string, prefix: string, joined: string, a: string, b: string, c: string, d: string,
                frame: string)
    requires x == prefix + joined && frame == a + b + c + d
    ensures x + a + b + c + d == prefix + (joined + frame)
  {
  }

  /** The four parts of a field extend the fields by their views, one after the other, and leave
      the last part in place in keep-last mode. */
  lemma FieldPartsFields(ps: seq<PartState>, boundary: string, lines: seq<string>, q: PartState,
                         keepLast: bool)
    requires keepLast ==> |ps| > 0
    ensures var r := FieldParts(ps, boundary, lines, q, keepLast);
      && Fields(r, keepLast)
         == Fields(ps, keepLast) + OpenDelimiter(boundary) + HeaderBlock(lines) + View(q) + Crlf
      && |r| == |ps| + 4
      && (keepLast ==> r[|r| - 1] == ps[|ps| - 1])
  {
    var open := OpenDelimiter(boundary);
    var block := HeaderBlock(lines);
    var ps1 := Insert(ps, FreshPart(open), keepLast);
    var ps2 := Insert(ps1, FreshPart(block), keepLast);
    var ps3 := Insert(ps2, q, keepLast);
    FreshView(open);
    FreshView(block);
    FreshView(Crlf);
    FieldsInsert(ps, FreshPart(open), keepLast);
    FieldsInsert(ps1, FreshPart(block), keepLast);
    FieldsInsert(ps2, q, keepLast);
    FieldsInsert(ps3, FreshPart(Crlf), keepLast);
  }

  /** Adding a field to framed parts appends its frame. */
  lemma FieldPartsFramed(ps: seq<PartState>, boundary: string, frames: seq<string>,
                         lines: seq<string>, q: PartState, keepLast: bool)
    requires FramedParts(ps, boundary, frames, keepLast)
    ensures FramedParts(FieldParts(ps, boundary, lines, q, keepLast), boundary,
                        frames + [Frame(boundary, lines, View(q))], keepLast)
  {
    var r := FieldParts(ps, boundary, lines, q, keepLast);
    FieldPartsFields(ps, boundary, lines, q, keepLast);
    var frame := Frame(boundary, lines, View(q));
    var prefix := if keepLast then "" else CloseDelimiter(boundary);
    JoinAppend(frames, [frame]);
    JoinOne(frame);
    RegroupFrame(Fields(ps, keepLast), prefix, Join(frames),
            OpenDelimiter(boundary), HeaderBlock(lines), View(q), Crlf, frame);
  }

  /** What `add` reads of a payload: a fresh stream over raw data, or the given stream. */
  function PayloadPart(p: Payload): PartState
    reads if p.Existing? then {p.stream} else {}
  {
    if p.Data? then FreshPart(p.bytes) else p.stream.State()
  }

  // ---------------------------------------------------------------------------------------------
  // The builder
  // ---------------------------------------------------------------------------------------------

  class MultipartStream {
    const boundary: string
    /** The container the parts are added to. */
    const body: MultiStream
    /** `_mime`: unset until `mime($mime)` is called. */
    var mime: Option<string>
    /** The frames of the fields added so far. */
    ghost var frames: seq<string>

    ghost predicate Valid()
      reads this, body
    {
      body.Valid()
    }

    /** The body is the fields' frames with the close delimiter where the container keeps it. */
    ghost predicate Framed()
      reads this, body
    {
      FramedParts(body.parts, boundary, frames, body.keepLast)
    }

    /** A builder with the configured boundary, or the generated one when none is configured; its
        only part is the close delimiter. */
    constructor (config: Option<string>, generated: string, bufferSize: int, keepLast: bool)
      ensures Valid() && Framed() && frames == [] && fresh(body)
      ensures boundary == config.GetOr(generated)
      ensures body.bufferSize == bufferSize && body.keepLast == keepLast && mime.None?
      ensures body.parts == [FreshPart(CloseDelimiter(boundary))] && body.seekable
      ensures body.current == 0 && body.offset == 0
      ensures Concat(body.parts) == CloseDelimiter(boundary)
    {
      boundary := config.GetOr(generated);
      body := new MultiStream(bufferSize, keepLast);
      mime := None;
      frames := [];
      new;
      var close := CloseDelimiter(boundary);
      var added := body.Add(Data(close));
      FreshView(close);
      assert Concat(body.parts) == View(body.parts[0]) + Concat([]);
      if keepLast {
        assert body.parts[..0] == [];
      }
    }

    /** `boundary()`: the boundary the delimiters are made of. */
    function Boundary(): (r: string)
      reads this
      ensures r == boundary
    {
      boundary
    }

    /** `mime()` with no argument: the stored mime, unset until one is stored. */
    function Mime(): (r: Option<string>)
      reads this
      ensures r == mime
    {
      mime
    }

    /** `mime($mime)`: stores the given mime, or `multipart/mixed` when it is null or false. */
    method SetMime(m: Option<string>) returns (r: string)
      modifies this`mime
      ensures mime == Some(r) && !Falsy(r)
      ensures m.Some? && !Falsy(m.value) ==> r == m.value
      ensures m.None? || Falsy(m.value) ==> r == "multipart/mixed"
    {
      r := if m.Some? && !Falsy(m.value) then m.value else "multipart/mixed";
      mime := Some(r);
    }

    /** A payload as a stream: raw data gets a fresh stream, a stream is taken as it is. */
    static method Wrap(p: Payload) returns (s: Stream)
      requires p.Existing? ==> p.stream.Valid()
      ensures s.Valid() && s.State() == PayloadPart(p)
      ensures p.Existing? ==> s == p.stream
      ensures p.Data? ==> fresh(s) && s.open && s.readable
    {
      if p.Data? {
        s := new Stream(p.bytes, NoMime, "", 0, None, 4096);
      } else {
        s := p.stream;
      }
    }

    /** The first half of `add($stream, $options)`: wraps raw data in a stream, requires a name and
        resolves the length, giving the stream and its header lines. `mimeType` is the mime the
        payload resolves to. */
    method HeadersFor(p: Payload, o: FieldOptions, mimeType: string) returns (s: Stream, r: Result<seq<string>>)
      requires p.Existing? ==> p.stream.Valid()
      modifies (if p.Existing? then {p.stream} else {})`pos
      ensures s.Valid() && s.State() == old(PayloadPart(p))
      ensures p.Existing? ==> s == p.stream
      ensures p.Data? ==> fresh(s) && s.open && s.readable
      ensures o.name.None? ==> r == Failure(InvalidArgumentException("The `'name'` option is required."))
      ensures o.name.Some? && o.length.None? && !s.open ==> r == Failure(TypeError)
      ensures r.Success? <==> o.name.Some? && (o.length.Some? || s.open)
      ensures r.Success? ==>
        r.value == HeaderLines(o, o.name.value, mimeType, ResolvedLength(o, PartLength(s.State())))
    {
      s := Wrap(p);
      ghost var q := s.State();
      if o.name.None? {
        return s, Failure(InvalidArgumentException("The `'name'` option is required."));
      }
      var length: Option<int>;
      if o.length.Some? {
        length := o.length;
      } else {
        var measured := s.Length();
        if measured.Failure? {
          return s, Failure(measured.error);
        }
        length := measured.value;
      }
      assert s.State() == q && length == ResolvedLength(o, PartLength(q));
      r := Success(HeaderLines(o, o.name.value, mimeType, length));
    }

    /** The second half of `add`: the delimiter line, the header block, the payload and a CR LF,
        each added to the container. A payload the container refuses stops `add` after the first
        two. */
    method AddParts(s: Stream, lines: seq<string>) returns (r: Result<()>)
      requires Valid() && s.Valid()
      modifies body`parts, body`seekable, this`frames
      ensures Valid()
      ensures r.Success? <==> s.open && s.readable
      ensures !s.open ==> r == Failure(TypeError)
      ensures s.open && !s.readable ==>
        r == Failure(InvalidArgumentException("Can't appends a non readable stream."))
      ensures r.Failure? ==>
        && body.parts == Insert(Insert(old(body.parts), FreshPart(OpenDelimiter(boundary)), body.keepLast),
                                FreshPart(HeaderBlock(lines)), body.keepLast)
        && body.seekable == old(body.seekable) && frames == old(frames)
      ensures r.Success? ==>
        && body.parts == FieldParts(old(body.parts), boundary, lines, s.State(), body.keepLast)
        && body.seekable == (old(body.seekable) && s.seekable)
        && (old(Framed()) ==> Framed() && frames == old(frames) + [Frame(boundary, lines, View(s.State()))])
    {
      ghost var ps0 := body.parts;
      ghost var k := body.keepLast;
      var added := body.Add(Data(OpenDelimiter(boundary)));
      ghost var ps1 := body.parts;
      assert ps1 == Insert(ps0, FreshPart(OpenDelimiter(boundary)), k);
      added := body.Add(Data(HeaderBlock(lines)));
      ghost var ps2 := body.parts;
      assert ps2 == Insert(ps1, FreshPart(HeaderBlock(lines)), k);
      assert body.seekable == old(body.seekable);
      added := body.Add(Existing(s));
      if added.Failure? {
        return added;
      }
      ghost var ps3 := body.parts;
      assert ps3 == Insert(ps2, s.State(), k);
      added := body.Add(Data(Crlf));
      assert body.parts == Insert(ps3, FreshPart(Crlf), k);
      assert body.parts == FieldParts(ps0, boundary, lines, s.State(), k);
      RecordFrame(ps0, lines, s.State());
      r := Success(());
    }

    /** Appends the frame of a field whose parts were just added, when the body was framed. */
    ghost method RecordFrame(ps0: seq<PartState>, lines: seq<string>, q: PartState)
      requires body.parts == FieldParts(ps0, boundary, lines, q, body.keepLast)
      modifies this`frames
      ensures FramedParts(ps0, boundary, old(frames), body.keepLast) ==>
        Framed() && frames == old(frames) + [Frame(boundary, lines, View(q))]
      ensures !FramedParts(ps0, boundary, old(frames), body.keepLast) ==> frames == old(frames)
    {
      if FramedParts(ps0, boundary, frames, body.keepLast) {
        FieldPartsFramed(ps0, boundary, frames, lines, q, body.keepLast);
        frames := frames + [Frame(boundary, lines, View(q))];
      }
    }

    /** `add($stream, $options)`: the header lines of the payload, then its four parts. The frame
        of the field joins the body when it was framed. */
    method Add(p: Payload, o: FieldOptions, mimeType: string) returns (r: Result<()>)
      requires Valid()
      requires p.Existing? ==> p.stream.Valid()
      modifies body`parts, body`seekable, this`frames
      modifies (if p.Existing? then {p.stream} else {})`pos
      ensures Valid()
      ensures p.Existing? ==> p.stream.State() == old(p.stream.State())
      ensures r.Success? <==> o.name.Some? && (p.Data? || (p.stream.open && p.stream.readable))
      ensures o.name.None? ==>
        && r == Failure(InvalidArgumentException("The `'name'` option is required."))
        && body.parts == old(body.parts) && frames == old(frames)
      ensures o.name.Some? && o.length.None? && p.Existing? && !p.stream.open ==>
        r == Failure(TypeError) && body.parts == old(body.parts) && frames == old(frames)
      ensures r.Failure? && o.name.Some? && (o.length.Some? || p.Data? || p.stream.open) ==>
        var lines := HeaderLines(o, o.name.value, mimeType, ResolvedLength(o, PartLength(old(PayloadPart(p)))));
        && body.parts == Insert(Insert(old(body.parts), FreshPart(OpenDelimiter(boundary)), body.keepLast),
                                FreshPart(HeaderBlock(lines)), body.keepLast)
        && frames == old(frames)
      ensures r.Success? ==>
        var lines := HeaderLines(o, o.name.value, mimeType, ResolvedLength(o, PartLength(old(PayloadPart(p)))));
        && body.parts == FieldParts(old(body.parts), boundary, lines, old(PayloadPart(p)), body.keepLast)
        && body.seekable == (old(body.seekable) && old(PayloadPart(p)).seekable)
        && (old(Framed()) ==>
              Framed() && frames == old(frames) + [Frame(boundary, lines, View(old(PayloadPart(p))))])
    {
      var s, lines := HeadersFor(p, o, mimeType);
      if lines.Failure? {
        return Failure(lines.error);
      }
      r := AddParts(s, lines.value);
    }

    /** `toString()` of the builder: a seekable container whose content holds no '0' byte
        serialises to its whole content; when the body is framed, that is the fields' frames with
        `--B--` CR LF where the container keeps it. */
    method ToString() returns (r: string)
      requires Valid() && body.bufferSize > 0 && AllBounded(body.parts)
      modifies body`parts, body`current, body`offset
      ensures Valid() && EofSpec(body.parts, body.current)
      ensures old(body.seekable) && '0' !in old(Concat(body.parts)) ==> r == old(Concat(body.parts))
      ensures old(Framed()) && old(body.seekable) && '0' !in old(Concat(body.parts)) ==>
        r == Layout(boundary, frames, body.keepLast)
    {
      if Framed() {
        LayoutOf(body.parts, boundary, frames, body.keepLast);
      }
      r := body.ToString();
    }
  }

  /** The builder's basic use: a new builder with one field added holds that field's frame. */
  method BuildOneField() returns (m: MultipartStream, added: Result<()>)
    ensures fresh(m) && m.Valid() && m.boundary == "B"
    ensures added.Success? && m.Framed() && |m.frames| == 1
  {
    m := new MultipartStream(Some("B"), "", 4096, true);
    added := m.Add(Data("hi"), FieldOptions(Some("n"), None, None, None), "text/plain");
  }
}

=== FILE: streams.dfy ===
/**
 * The single-resource `Stream` of src/Stream.php, over an in-memory buffer that stands for
 * `php://temp`: the buffer's bytes, a file pointer, the resource's open/readable/writable/seekable
 * state, and the `start`/`limit` window the class layers on top of the resource.
 */
module Streams {
  import opened Wrappers
  import opened Text

  /** The second argument of `seek`. */
  datatype Whence = SeekSet | SeekCur | SeekEnd

  /** The `mime` option: a literal string, `true` (detect from the content), or false/null. */
  datatype MimeOption = MimeString(s: string) | Detect | NoMime

  const OctetStream: string := "application/octet-stream"

  function Min(a: int, b: int): int { if a <= b then a else b }
  function Max(a: int, b: int): int { if a <= b then b else a }

  // ---------------------------------------------------------------------------------------------
  // The buffer primitives (fseek, fread, fwrite on an in-memory resource)
  // ---------------------------------------------------------------------------------------------

  /** Where a `SEEK_SET` to `t` leaves the pointer of a buffer of `size` bytes: targets
      outside the buffer land at its end. */
  function SeekTarget(size: nat, t: int): (r: nat)
    ensures r <= size
    ensures 0 <= t <= size ==> r == t
  {
    if 0 <= t <= size then t else size
  }

  /** The pointer after `fseek(offset, whence)` from `pos`; `SEEK_CUR` is a `SEEK_SET` relative to
      `pos`, and `SEEK_END` stays within the buffer. */
  function NewPosition(size: nat, pos: nat, offset: int, whence: Whence): (r: nat)
    ensures r <= size
    ensures whence == SeekSet && 0 <= offset <= size ==> r == offset
    ensures whence == SeekCur && 0 <= pos + offset <= size ==> r == pos + offset
    ensures whence == SeekEnd && -(size as int) <= offset <= 0 ==> r == size + offset
  {
    match whence
    case SeekSet => SeekTarget(size, offset)
    case SeekCur => SeekTarget(size, pos + offset)
    case SeekEnd => if offset > 0 then size else if size + offset < 0 then 0 else size + offset
  }

  /** The buffer after `fwrite` puts `w` at `pos`: bytes under `w` are replaced, the buffer grows
      as needed. */
  function Overwrite(content: string, pos: nat, w: string): (r: string)
    requires pos <= |content|
  {
    content[..pos] + w + (if pos + |w| < |content| then content[pos + |w|..] else "")
  }

  lemma OverwritePlacesData(content: string, pos: nat, w: string)
    requires pos <= |content|
    ensures |Overwrite(content, pos, w)| == Max(|content|, pos + |w|)
    ensures Overwrite(content, pos, w)[..pos] == content[..pos]
    ensures Overwrite(content, pos, w)[pos..pos + |w|] == w
    ensures pos + |w| < |content| ==> Overwrite(content, pos, w)[pos + |w|..] == content[pos + |w|..]
  {
    var r := Overwrite(content, pos, w);
    var tail := if pos + |w| < |content| then content[pos + |w|..] else "";
    assert r == content[..pos] + w + tail;
    assert r[pos..pos + |w|] == w;
    assert r[pos + |w|..] == tail;
  }

  /** Writing at the end of the buffer appends the data. */
  lemma OverwriteAtEnd(content: string, w: string)
    ensures Overwrite(content, |content|, w) == content + w
  {
    assert content[..|content|] == content;
  }

  /** The bytes `fwrite($s, $length)` writes: the first `$length` bytes of `$s`, none for a
      length that is not positive, all of them without a length. */
  function Written(s: string, length: Option<int>): (w: string)
    ensures |w| <= |s| && w == s[..|w|]
    ensures |w| == if length.Some? then Max(0, Min(length.value, |s|)) else |s|
  {
    if length.None? then s
    else if length.value <= 0 then ""
    else if length.value < |s| then s[..length.value]
    else s
  }

  // ---------------------------------------------------------------------------------------------
  // The window of a stream and what reads, EOF and size make of it
  // ---------------------------------------------------------------------------------------------

  /** The state of a stream that reading, seeking and measuring depend on. */
  datatype PartState = PartState(content: string, pos: nat, start: int, limit: Option<int>, seekable: bool)

  /** Where `rewind()` puts the pointer. */
  function Lo(p: PartState): nat
  {
    SeekTarget(|p.content|, p.start)
  }

  /** The offset at which `eof()` starts to hold: `start + limit`, or the end of the buffer. */
  function EofMark(p: PartState): int
  {
    if p.limit.None? then |p.content| else p.start + p.limit.value
  }

  /** Where reads from `rewind()` onwards stop. */
  function ViewEnd(p: PartState): (r: nat)
    ensures Lo(p) <= r <= |p.content|
  {
    if p.limit.None? then |p.content| else Max(Lo(p), Min(p.start + p.limit.value, |p.content|))
  }

  /** The bytes a stream yields from `rewind()` to its end: its contribution to a concatenation. */
  function View(p: PartState): string
  {
    p.content[Lo(p)..ViewEnd(p)]
  }

  /** Where reads from the pointer stop: `start + limit` when it lies inside the buffer, else the
      end of the buffer. */
  function RestEnd(p: PartState): (r: nat)
    ensures r <= |p.content|
  {
    if p.limit.None? then |p.content| else Max(0, Min(p.start + p.limit.value, |p.content|))
  }

  /** The bytes the stream yields from its pointer on, read after read. */
  function Rest(p: PartState): string
  {
    if p.pos <= RestEnd(p) then p.content[p.pos..RestEnd(p)] else ""
  }

  /** `eof()`: the pointer has reached `start + limit`, or the end of the buffer without a limit. */
  predicate AtEof(p: PartState)
  {
    p.pos >= EofMark(p)
  }

  /** `_bufferSize()`: under a limit the requested length is replaced by the distance to
      `start + limit`. */
  function ReadLength(p: PartState, requested: int): int
  {
    if p.limit.Some? then p.start + p.limit.value - p.pos else requested
  }

  /** What `fread($n)` returns at the pointer. */
  function Chunk(p: PartState, n: int): (r: string)
    requires p.pos <= |p.content|
  {
    if n <= 0 then "" else p.content[p.pos..Min(p.pos + n, |p.content|)]
  }

  /** The range of the stream ends inside its buffer, so reading reaches `eof()`. */
  predicate Bounded(p: PartState)
  {
    p.limit.None? || p.start + p.limit.value <= |p.content|
  }

  /** The range does not end before it starts. */
  predicate Ordered(p: PartState)
  {
    p.limit.None? || Lo(p) <= p.start + p.limit.value
  }

  /** Bytes left before `eof()` holds. */
  function Rem(p: PartState): nat
  {
    if AtEof(p) then 0 else EofMark(p) - p.pos
  }

  /** Where `end()` puts the pointer. */
  function EndTarget(p: PartState): nat
  {
    if p.limit.None? then |p.content| else SeekTarget(|p.content|, p.start + p.limit.value)
  }

  /** `size()` of a seekable stream: `end()` minus `rewind()`. */
  function SizeOf(p: PartState): int
  {
    EndTarget(p) - Lo(p)
  }

  /** Without a limit a read returns the requested number of bytes, or what is left. */
  lemma ReadWithoutLimit(p: PartState, n: int)
    requires p.pos <= |p.content| && p.limit.None?
    ensures var c := Chunk(p, ReadLength(p, n));
      |c| == Min(Max(n, 0), |p.content| - p.pos) && c == p.content[p.pos..p.pos + |c|]
  {
  }

  /** Under a limit a read returns everything up to `start + limit`, whatever was requested. */
  lemma ReadUnderLimit(p: PartState, n: int)
    requires p.pos <= |p.content| && p.limit.Some?
    ensures var c := Chunk(p, ReadLength(p, n));
      p.pos + |c| <= Max(p.pos, p.start + p.limit.value) &&
      (p.pos < p.start + p.limit.value <= |p.content| ==> c == p.content[p.pos..p.start + p.limit.value])
  {
  }

  /** Read from within the window, a stream yields the next bytes of its view, stops at the view's
      end, and returns nothing only once it is there. */
  lemma ChunkInView(p: PartState, n: int)
    requires Lo(p) <= p.pos <= ViewEnd(p) && n > 0
    ensures var c := Chunk(p, ReadLength(p, n));
      && p.pos + |c| <= ViewEnd(p)
      && c == View(p)[p.pos - Lo(p)..p.pos - Lo(p) + |c|]
      && (c == "" ==> p.pos == ViewEnd(p))
      && (p.limit.None? ==> |c| == Min(n, ViewEnd(p) - p.pos))
      && (p.limit.Some? ==> |c| == ViewEnd(p) - p.pos)
  {
    var c := Chunk(p, ReadLength(p, n));
    var v := View(p);
    var d := p.pos - Lo(p);
    assert |c| <= ViewEnd(p) - p.pos;
    forall i | 0 <= i < |c|
      ensures v[d + i] == c[i]
    {
    }
    assert c == v[d..d + |c|];
  }

  /** A read returns the next bytes of what the stream has left, and what it has left afterwards
      is the remainder; an empty chunk from a read of a positive length, or of any length under a
      limit, means nothing is left. */
  lemma ReadTakesRest(p: PartState, n: int)
    requires p.pos <= |p.content|
    ensures var c := Chunk(p, ReadLength(p, n));
      && |c| <= |Rest(p)|
      && c == Rest(p)[..|c|]
      && Rest(p.(pos := p.pos + |c|)) == Rest(p)[|c|..]
      && (c == "" && (n > 0 || p.limit.Some?) ==> Rest(p) == "")
  {
  }

  /** At `eof()` nothing is left to read. */
  lemma EofLeavesNothing(p: PartState)
    requires AtEof(p)
    ensures Rest(p) == ""
  {
  }

  /** Conversely, when the range ends inside the buffer, nothing left means `eof()`. */
  lemma NothingLeftAtEof(p: PartState)
    requires Bounded(p) && Rest(p) == ""
    ensures AtEof(p)
  {
  }

  /** From `rewind()`, what a stream has left is its view. */
  lemma RestFromStart(p: PartState)
    ensures Rest(p.(pos := Lo(p))) == View(p)
  {
  }

  /** Within the window, `eof()` means the pointer sits at the view's end; for a bounded range the
      converse holds too. */
  lemma EofAtViewEnd(p: PartState)
    requires Lo(p) <= p.pos <= ViewEnd(p)
    ensures AtEof(p) ==> p.pos == ViewEnd(p)
    ensures Bounded(p) && p.pos == ViewEnd(p) ==> AtEof(p)
  {
  }

  /** For an ordered range, `size()` is the length of the view. */
  lemma SizeIsViewLength(p: PartState)
    requires Ordered(p)
    ensures SizeOf(p) == |View(p)|
  {
  }

  /** Reading never increases the number of bytes left before `eof()`; a read from a bounded
      stream not at `eof()` returns at least one byte and consumes exactly that many. */
  lemma ReadConsumesRem(p: PartState, n: int)
    requires p.pos <= |p.content|
    ensures var c := Chunk(p, ReadLength(p, n));
      && p.pos + |c| <= |p.content|
      && Rem(p.(pos := p.pos + |c|)) <= Rem(p)
      && (Bounded(p) && !AtEof(p) && (p.limit.None? ==> n > 0) ==>
            |c| > 0 && Rem(p.(pos := p.pos + |c|)) == Rem(p) - |c|)
  {
  }

  // ---------------------------------------------------------------------------------------------
  // Ranges: "start-end" strings
  // ---------------------------------------------------------------------------------------------

  /** The index of the first '-' in `s`, or `|s|`. */
  function DashAt(s: string): (i: nat)
    ensures i <= |s|
    ensures i < |s| ==> s[i] == '-'
    ensures forall j :: 0 <= j < i ==> s[j] != '-'
  {
    if |s| == 0 || s[0] == '-' then 0 else 1 + DashAt(s[1..])
  }

  /** The argument forms `range()` is given: digits, a dash, and optionally more digits. */
  predicate RangeSyntax(s: string)
  {
    var i := DashAt(s);
    0 < i < |s| && IsDigits(s[..i]) && IsDigits(s[i + 1..])
  }

  /** `range($range)`: the start and the limit (`end - start`, or none when the end is empty). */
  function ParseRange(s: string): (r: (int, Option<int>))
    requires RangeSyntax(s)
  {
    var i := DashAt(s);
    var a := ParseNat(s[..i]);
    var b := s[i + 1..];
    (a, if b == "" then None else Some(ParseNat(b) - a))
  }

  /** What `range()` returns: the start, a dash, and the end when the limit is truthy. */
  function FormatRange(start: int, limit: Option<int>): string
  {
    IntToString(start) + "-" + (if limit.Some? && limit.value != 0 then IntToString(start + limit.value) else "")
  }

  /** `range()` gives back a range it was handed in canonical form ("1-3" gives "1-3", "3-" gives
      "3-"), except that an empty range "a-a" comes back as "a-" since its limit 0 is falsy. */
  lemma {:induction false} RangeRoundTrip(a: string, b: string)
    requires IsNumeral(a) && (b == "" || IsNumeral(b))
    ensures RangeSyntax(a + "-" + b)
    ensures ParseRange(a + "-" + b).0 == ParseNat(a)
    ensures (ParseRange(a + "-" + b).1 == None) <==> b == ""
    ensures FormatRange(ParseRange(a + "-" + b).0, ParseRange(a + "-" + b).1)
         == if b == a then a + "-" else a + "-" + b
  {
    var s := a + "-" + b;
    DashAfterDigits(a, b);
    assert s[..|a|] == a && s[|a| + 1..] == b;
    PrintParsed(a);
    var start := ParseNat(a);
    assert IntToString(start) == a;
    if b != "" {
      PrintParsed(b);
      var end := ParseNat(b);
      if b == a {
        assert end - start == 0;
      } else {
        assert NatToString(end) == b && NatToString(start) == a;
        assert IntToString(start as int + (end as int - start as int)) == b;
      }
    }
  }

  lemma DashAfterDigits(a: string, b: string)
    requires IsDigits(a)
    ensures DashAt(a + "-" + b) == |a|
    decreases |a|
  {
    if |a| > 0 {
      assert (a + "-" + b)[1..] == a[1..] + "-" + b;
      DashAfterDigits(a[1..], b);
    }
  }

  // ---------------------------------------------------------------------------------------------
  // Lines
  // ---------------------------------------------------------------------------------------------

  /** `ending` occurs whole inside `w` at index `j`. */
  predicate OccursAt(w: string, ending: string, j: nat)
  {
    j + |ending| <= |w| && w[j..j + |ending|] == ending
  }

  /** The first index at or after `i` where `ending` occurs whole inside `w`. */
  function FindFrom(w: string, ending: string, i: nat): (r: Option<nat>)
    requires i <= |w|
    ensures r.Some? ==> i <= r.value && OccursAt(w, ending, r.value)
    ensures r.Some? ==> forall j :: i <= j < r.value ==> !OccursAt(w, ending, j)
    ensures r.None? ==> forall j :: i <= j ==> !OccursAt(w, ending, j)
    decreases |w| - i
  {
    if i + |ending| > |w| then None
    else if w[i..i + |ending|] == ending then Some(i)
    else if i == |w| then None
    else FindFrom(w, ending, i + 1)
  }

  /** `stream_get_line($length, $ending)` from the pointer: the line and the bytes it consumes. */
  function Line(p: PartState, n: int, ending: string): (r: (string, nat))
    requires p.pos <= |p.content|
  {
    if n <= 0 then ("", 0)
    else
      var w := p.content[p.pos..Min(p.pos + n, |p.content|)];
      var found := if ending == "" then None else FindFrom(w, ending, 0);
      if found.Some? then (w[..found.value], found.value + |ending|) else (w, |w|)
  }

  /** A line is the text before the first occurrence of the ending inside the requested window;
      the ending is consumed and not returned; without one the whole window is returned. */
  lemma LineStopsAtEnding(p: PartState, n: int, ending: string)
    requires p.pos <= |p.content| && n > 0 && ending != ""
    ensures var (line, used) := Line(p, n, ending);
      var w := p.content[p.pos..Min(p.pos + n, |p.content|)];
      && p.pos + used <= Min(p.pos + n, |p.content|)
      && line == w[..|line|]
      && (used == |line| + |ending| ==> OccursAt(w, ending, |line|))
      && (used == |line| ==> line == w)
      && forall j :: 0 <= j < |line| ==> !OccursAt(w, ending, j)
  {
  }

  // ---------------------------------------------------------------------------------------------
  // Mime
  // ---------------------------------------------------------------------------------------------

  /** `_getMime($mime)`: a string is kept; false/null, a stream that cannot be seeked or read, or
      nothing left to read give the octet-stream default; otherwise the detected type. */
  function ResolveMime(m: MimeOption, seekable: bool, readable: bool, rest: string, detected: string): (r: string)
    ensures m.MimeString? ==> r == m.s
    ensures m.NoMime? ==> r == OctetStream
    ensures m.Detect? ==> (r == detected || r == OctetStream)
    ensures m.Detect? && seekable && readable && rest != "" ==> r == detected
    ensures m.Detect? && (!seekable || !readable || rest == "") ==> r == OctetStream
  {
    match m
    case MimeString(s) => s
    case NoMime => OctetStream
    case Detect => if !seekable || !readable || rest == "" then OctetStream else detected
  }

  // ---------------------------------------------------------------------------------------------
  // The mode of a resource
  // ---------------------------------------------------------------------------------------------

  /** `strpos($mode, '+')` is truthy: a '+' occurs, and not at index 0. */
  predicate PlusAfterFirst(mode: string)
    requires |mode| > 0
  {
    '+' in mode && mode[0] != '+'
  }

  /** A resource opened to append (`a`, `a+`) writes at the end of its buffer. */
  predicate Appends(mode: string)
  {
    |mode| > 0 && mode[0] == 'a'
  }

  /** `readable()`: the mode opens for reading, or for update. */
  predicate ModeReadable(mode: string)
    requires |mode| > 0
  {
    mode[0] == 'r' || PlusAfterFirst(mode)
  }

  /** `writable()`: the mode does not open for reading only. */
  predicate ModeWritable(mode: string)
    requires |mode| > 0
  {
    mode[0] != 'r' || PlusAfterFirst(mode)
  }

  /** The modes `fopen` is given: "r" reads only, "w" and "a" write only, and a '+' adds the
      other direction; so the `r+` of a fresh `php://temp` reads and writes. */
  lemma FopenModes()
    ensures ModeReadable("r") && !ModeWritable("r")
    ensures !ModeReadable("w") && ModeWritable("w") && !ModeReadable("a") && ModeWritable("a")
    ensures ModeReadable("r+") && ModeWritable("r+") && ModeReadable("w+") && ModeWritable("w+")
    ensures ModeReadable("a+") && ModeWritable("a+")
    ensures Appends("a") && Appends("a+") && !Appends("r+") && !Appends("w") && !Appends("w+")
  {
    assert "r+"[1] == '+' && "w+"[1] == '+' && "a+"[1] == '+';
  }

  /** The messages of `_readable()` and `_writable()` for a stream its mode does not allow. */
  function NotReadable(mode: string): string
  {
    "Cannot read on a non-readable stream (mode is `'" + mode + "'`)."
  }

  function NotWritable(mode: string): string
  {
    "Cannot write on a non-writable stream (mode is `'" + mode + "'`)."
  }

  // ---------------------------------------------------------------------------------------------
  // The class
  // ---------------------------------------------------------------------------------------------

  class Stream {
    /** The bytes held by the resource. */
    var content: string
    /** The resource's file pointer (`ftell`). */
    var pos: nat
    /** The resource has not been closed (`valid()`). */
    var open: bool
    /** The mode the resource was opened with, as `stream_get_meta_data` reports it. */
    const mode: string
    const readable: bool
    const writable: bool
    const seekable: bool
    var start: int
    var limit: Option<int>
    var mime: string
    var bufferSize: int

    ghost predicate Valid()
      reads this
    {
      pos <= |content|
    }

    function State(): PartState
      reads this
    {
      PartState(content, pos, start, limit, seekable)
    }

    /** A stream over a fresh `php://temp` resource, opened `r+` and filled with `data`: "" and
        "0" are falsy and leave it empty. With a positive start the pointer is rewound to it. */
    constructor (data: string, mimeOption: MimeOption, detected: string, start: int, limit: Option<int>, bufferSize: int)
      ensures Valid() && open && mode == "r+" && readable && writable && seekable
      ensures content == (if Falsy(data) then "" else data)
      ensures this.start == start && this.limit == limit && this.bufferSize == bufferSize
      ensures pos == (if start > 0 then Lo(State()) else 0)
      ensures mime == ResolveMime(mimeOption, true, true, content, detected)
    {
      content := if Falsy(data) then "" else data;
      pos := 0;
      open := true;
      mode := "r+";
      readable, writable, seekable := true, true, true;
      this.start := start;
      this.limit := limit;
      this.bufferSize := bufferSize;
      new;
      mime := ResolveMime(mimeOption, true, true, content, detected);
      if start > 0 {
        pos := SeekTarget(|content|, start);
      }
    }

    /** The object over an already opened resource before the constructor rewinds it: the
        capabilities come from the mode, the mime is resolved at the resource's pointer. */
    constructor Attach(content: string, pos: nat, mode: string, seekable: bool, mimeOption: MimeOption,
                       detected: string, start: int, limit: Option<int>, bufferSize: int)
      requires pos <= |content| && |mode| > 0
      ensures Valid() && open && this.content == content && this.pos == pos && this.mode == mode
      ensures readable == ModeReadable(mode) && writable == ModeWritable(mode) && this.seekable == seekable
      ensures this.start == start && this.limit == limit && this.bufferSize == bufferSize
      ensures mime == ResolveMime(mimeOption, seekable, ModeReadable(mode), content[pos..], detected)
    {
      this.content := content;
      this.pos := pos;
      open := true;
      this.mode := mode;
      readable, writable, this.seekable := ModeReadable(mode), ModeWritable(mode), seekable;
      this.start := start;
      this.limit := limit;
      this.bufferSize := bufferSize;
      mime := ResolveMime(mimeOption, seekable, ModeReadable(mode), content[pos..], detected);
    }

    /** `new Stream(['data' => $resource, ...])`: a stream over an already opened resource, with
        the given window. A positive start rewinds to it, which a resource that cannot seek
        refuses, so the constructor throws. */
    static method FromHandle(content: string, pos: nat, mode: string, seekable: bool, mimeOption: MimeOption,
                             detected: string, start: int, limit: Option<int>, bufferSize: int)
      returns (r: Result<Stream>)
      requires pos <= |content| && |mode| > 0
      ensures r.Failure? <==> start > 0 && !seekable
      ensures r.Failure? ==> r.error == StreamException("Cannot seek on a non-seekable stream.")
      ensures r.Success? ==>
        var s := r.value;
        && fresh(s) && s.Valid() && s.open && s.content == content && s.mode == mode
        && s.readable == ModeReadable(mode) && s.writable == ModeWritable(mode) && s.seekable == seekable
        && s.start == start && s.limit == limit && s.bufferSize == bufferSize
        && s.mime == ResolveMime(mimeOption, seekable, ModeReadable(mode), content[pos..], detected)
        && s.pos == (if start > 0 then Lo(s.State()) else pos)
    {
      var s := new Stream.Attach(content, pos, mode, seekable, mimeOption, detected, start, limit, bufferSize);
      if start > 0 {
        var rw := s.Rewind();
        if rw.Failure? {
          return Failure(rw.error);
        }
      }
      r := Success(s);
    }

    // The checks that guard reading, writing and seeking.

    function ReadError(): (e: Option<Error>)
      reads this
      ensures e.None? <==> open && readable
    {
      if !open then Some(StreamException("Cannot read from a closed stream."))
      else if !readable then Some(StreamException(NotReadable(mode)))
      else None
    }

    function WriteError(): (e: Option<Error>)
      reads this
      ensures e.None? <==> open && writable
    {
      if !open then Some(StreamException("Cannot write on a closed stream."))
      else if !writable then Some(StreamException(NotWritable(mode)))
      else None
    }

    function SeekError(): (e: Option<Error>)
      reads this
      ensures e.None? <==> open && seekable
    {
      if !open then Some(StreamException("Cannot seek on a closed stream."))
      else if !seekable then Some(StreamException("Cannot seek on a non-seekable stream."))
      else None
    }

    /** `readable()`, `writable()`, `seekable()`: the mode of the resource, which a closed stream
        no longer has. */
    function IsReadable(): (r: Result<bool>)
      reads this
      ensures r.Success? <==> open
      ensures r.Success? ==> r.value == readable
    {
      if open then Success(readable) else Failure(TypeError)
    }

    function IsWritable(): (r: Result<bool>)
      reads this
      ensures r.Success? <==> open
      ensures r.Success? ==> r.value == writable
    {
      if open then Success(writable) else Failure(TypeError)
    }

    function IsSeekable(): (r: Result<bool>)
      reads this
      ensures r.Success? <==> open
      ensures r.Success? ==> r.value == seekable
    {
      if open then Success(seekable) else Failure(TypeError)
    }

    /** `offset()`: the file pointer. */
    function Offset(): (r: Result<nat>)
      reads this
      ensures r.Success? <==> open
      ensures r.Success? ==> r.value == pos
    {
      if open then Success(pos) else Failure(TypeError)
    }

    function Start(): int
      reads this
    {
      start
    }

    function Limit(): Option<int>
      reads this
    {
      limit
    }

    function Mime(): string
      reads this
    {
      mime
    }

    /** `start($start, $autoseek)`: stores the start, then rewinds to it when asked. */
    method SetStart(s: int, autoseek: bool) returns (r: Result<int>)
      requires Valid()
      modifies this`start, this`pos
      ensures Valid() && start == s
      ensures !autoseek ==> r == Success(s) && pos == old(pos)
      ensures autoseek && old(SeekError()).Some? ==> r == Failure(old(SeekError()).value) && pos == old(pos)
      ensures autoseek && old(SeekError()).None? ==> r == Success(s) && pos == Lo(State())
    {
      start := s;
      if autoseek {
        var rw := Rewind();
        if rw.Failure? {
          return Failure(rw.error);
        }
      }
      r := Success(start);
    }

    /** `limit($limit)`: stores the limit and returns it. */
    method SetLimit(l: Option<int>) returns (r: Option<int>)
      modifies this`limit
      ensures limit == l && r == l
    {
      limit := l;
      r := limit;
    }

    /** `range($range)`: with an argument, sets the start and the limit from "start-end"; with or
        without one, returns the current range as a string. */
    method Range(arg: Option<string>) returns (r: string)
      requires arg.Some? ==> RangeSyntax(arg.value)
      modifies this`start, this`limit
      ensures arg.None? ==> start == old(start) && limit == old(limit)
      ensures arg.Some? ==> (start, limit) == ParseRange(arg.value)
      ensures r == FormatRange(start, limit)
    {
      if arg.Some? {
        var parsed := ParseRange(arg.value);
        start := parsed.0;
        limit := parsed.1;
      }
      r := FormatRange(start, limit);
    }

    /** `mime($mime)`: resolves and stores a new mime; detection needs the resource's mode, which a
        closed stream no longer has. */
    method SetMime(m: MimeOption, detected: string) returns (r: Result<string>)
      requires Valid()
      modifies this`mime
      ensures m.Detect? && !open ==> r == Failure(TypeError) && mime == old(mime)
      ensures !(m.Detect? && !open) ==>
        mime == ResolveMime(m, seekable, readable, content[pos..], detected) && r == Success(mime)
    {
      if m.Detect? && !open {
        return Failure(TypeError);
      }
      mime := ResolveMime(m, seekable, readable, content[pos..], detected);
      r := Success(mime);
    }

    /** `bufferSize($size)`: a getter with null, a setter otherwise. */
    method BufferSize(size: Option<int>) returns (r: int)
      modifies this`bufferSize
      ensures size.None? ==> bufferSize == old(bufferSize)
      ensures size.Some? ==> bufferSize == size.value
      ensures r == bufferSize
    {
      if size.Some? {
        bufferSize := size.value;
      }
      r := bufferSize;
    }

    /** `_bufferSize($length)`: the number of bytes a read asks the resource for. */
    function ReadLengthFor(length: Option<int>): int
      reads this
    {
      ReadLength(State(), length.GetOr(bufferSize))
    }

    /** `read($length)`: the next bytes, as many as `_bufferSize` allows. */
    method Read(length: Option<int>) returns (r: Result<string>)
      requires Valid()
      modifies this`pos
      ensures Valid()
      ensures old(ReadError()).Some? ==> r == Failure(old(ReadError()).value) && pos == old(pos)
      ensures old(ReadError()).None? ==>
        && r == Success(Chunk(old(State()), old(ReadLengthFor(length))))
        && pos == old(pos) + |r.value|
    {
      var e := ReadError();
      if e.Some? {
        return Failure(e.value);
      }
      var n := ReadLengthFor(length);
      var chunk := Chunk(State(), n);
      pos := pos + |chunk|;
      r := Success(chunk);
    }

    /** `getLine($length, $ending)`: the next line, up to the ending or the allowed length. */
    method GetLine(length: Option<int>, ending: string) returns (r: Result<string>)
      requires Valid()
      modifies this`pos
      ensures Valid()
      ensures old(ReadError()).Some? ==> r == Failure(old(ReadError()).value) && pos == old(pos)
      ensures old(ReadError()).None? ==>
        && r == Success(Line(old(State()), old(ReadLengthFor(length)), ending).0)
        && pos == old(pos) + Line(old(State()), old(ReadLengthFor(length)), ending).1
    {
      var e := ReadError();
      if e.Some? {
        return Failure(e.value);
      }
      var n := ReadLengthFor(length);
      var line := Line(State(), n, ending);
      assert pos + line.1 <= |content| by {
        if n > 0 && ending != "" { LineStopsAtEnding(State(), n, ending); }
      }
      pos := pos + line.1;
      r := Success(line.0);
    }

    /** `write($string, $length)`: writes at the pointer, or at the end of the buffer for a
        resource opened to append, and moves the pointer past the written bytes. */
    method Write(data: string, length: Option<int>) returns (r: Result<nat>)
      requires Valid()
      modifies this`content, this`pos
      ensures Valid()
      ensures old(WriteError()).Some? ==>
        r == Failure(old(WriteError()).value) && content == old(content) && pos == old(pos)
      ensures old(WriteError()).None? && !Appends(mode) ==>
        && content == Overwrite(old(content), old(pos), Written(data, length))
        && pos == old(pos) + |Written(data, length)|
      ensures old(WriteError()).None? && Appends(mode) ==>
        content == old(content) + Written(data, length) && pos == |content|
      ensures old(WriteError()).None? ==> r == Success(|Written(data, length)|)
    {
      var e := WriteError();
      if e.Some? {
        return Failure(e.value);
      }
      var w := Written(data, length);
      if Appends(mode) {
        OverwriteAtEnd(content, w);
        pos := |content|;
      }
      OverwritePlacesData(content, pos, w);
      content := Overwrite(content, pos, w);
      pos := pos + |w|;
      r := Success(|w|);
    }

    /** `push($string, $length)`: writes like `write` and seeks back to where the pointer was. */
    method Push(data: string, length: Option<int>) returns (r: Result<nat>)
      requires Valid()
      modifies this`content, this`pos
      ensures Valid()
      ensures old(WriteError()).Some? ==>
        r == Failure(old(WriteError()).value) && content == old(content) && pos == old(pos)
      ensures old(WriteError()).None? && !Appends(mode) ==>
        content == Overwrite(old(content), old(pos), Written(data, length))
      ensures old(WriteError()).None? && Appends(mode) ==> content == old(content) + Written(data, length)
      ensures old(WriteError()).None? && seekable ==> pos == old(pos) && r == Success(|Written(data, length)|)
      ensures old(WriteError()).None? && !seekable && !Appends(mode) ==>
        pos == old(pos) + |Written(data, length)|
      ensures old(WriteError()).None? && !seekable && Appends(mode) ==> pos == |content|
      ensures old(WriteError()).None? && !seekable ==>
        r == Failure(StreamException("Cannot seek on a non-seekable stream."))
    {
      var e := WriteError();
      if e.Some? {
        return Failure(e.value);
      }
      var offset := pos;
      var w := Written(data, length);
      if Appends(mode) {
        OverwriteAtEnd(content, w);
        pos := |content|;
      }
      OverwritePlacesData(content, pos, w);
      content := Overwrite(content, pos, w);
      pos := pos + |w|;
      var s := Seek(offset, SeekSet);
      if s.Failure? {
        return Failure(s.error);
      }
      r := Success(|w|);
    }

    /** `seek($offset, $whence)`: moves the pointer and returns where it landed. */
    method Seek(offset: int, whence: Whence) returns (r: Result<nat>)
      requires Valid()
      modifies this`pos
      ensures Valid()
      ensures old(SeekError()).Some? ==> r == Failure(old(SeekError()).value) && pos == old(pos)
      ensures old(SeekError()).None? ==>
        pos == NewPosition(|content|, old(pos), offset, whence) && r == Success(pos)
    {
      var e := SeekError();
      if e.Some? {
        return Failure(e.value);
      }
      pos := NewPosition(|content|, pos, offset, whence);
      r := Success(pos);
    }

    /** `rewind()`: back to the start of the range. */
    method Rewind() returns (r: Result<nat>)
      requires Valid()
      modifies this`pos
      ensures Valid()
      ensures old(SeekError()).Some? ==> r == Failure(old(SeekError()).value) && pos == old(pos)
      ensures old(SeekError()).None? ==> pos == Lo(State()) && r == Success(pos)
      ensures old(SeekError()).None? && 0 <= start <= |content| ==> pos == start
    {
      r := Seek(start, SeekSet);
    }

    /** `end()`: to `start + limit` under a limit, to the end of the buffer otherwise. */
    method End() returns (r: Result<nat>)
      requires Valid()
      modifies this`pos
      ensures Valid()
      ensures old(SeekError()).Some? ==> r == Failure(old(SeekError()).value) && pos == old(pos)
      ensures old(SeekError()).None? ==> pos == EndTarget(State()) && r == Success(pos)
      ensures old(SeekError()).None? && limit.Some? && 0 <= start + limit.value <= |content| ==>
        pos == start + limit.value
      ensures old(SeekError()).None? && limit.None? ==> pos == |content|
    {
      if limit.None? {
        r := Seek(0, SeekEnd);
      } else {
        r := Seek(start + limit.value, SeekSet);
      }
    }

    /** `eof()`: under a limit, the pointer has reached `start + limit`. */
    function Eof(): (r: Result<bool>)
      reads this
      ensures ReadError().Some? ==> r == Failure(ReadError().value)
      ensures ReadError().None? ==> r.Success? && (r.value <==> AtEof(State()))
      ensures ReadError().None? && limit.Some? ==> (r.value <==> pos >= start + limit.value)
    {
      var e := ReadError();
      if e.Some? then Failure(e.value)
      else if limit.None? then Success(pos >= |content|)
      else Success(pos >= start + limit.value)
    }

    /** `size()`: -1 when the stream cannot seek; otherwise `end()` minus `rewind()`, with the
        pointer put back where it was. */
    method Size() returns (r: Result<int>)
      requires Valid()
      modifies this`pos
      ensures Valid() && pos == old(pos)
      ensures !open ==> r == Failure(TypeError)
      ensures open && !seekable ==> r == Success(-1)
      ensures open && seekable ==> r == Success(SizeOf(State()))
      ensures open && seekable && Ordered(State()) ==> r == Success(|View(State())|)
    {
      if !open {
        return Failure(TypeError);
      }
      if !seekable {
        return Success(-1);
      }
      var was := pos;
      var begin := Rewind();
      var end := End();
      var back := Seek(was, SeekSet);
      r := Success(end.value - begin.value);
      if Ordered(State()) {
        SizeIsViewLength(State());
      }
    }

    /** `length()`, what a container asks of its parts: the size when seekable, null otherwise. */
    method Length() returns (r: Result<Option<int>>)
      requires Valid()
      modifies this`pos
      ensures Valid() && pos == old(pos)
      ensures !open ==> r == Failure(TypeError)
      ensures open && !seekable ==> r == Success(None)
      ensures open && seekable ==> r == Success(Some(SizeOf(State())))
    {
      if !open {
        return Failure(TypeError);
      }
      if !seekable {
        return Success(None);
      }
      var size := Size();
      r := Success(Some(size.value));
    }

    /** `flush()`: everything from the pointer to the end of the buffer, limit or not. */
    method Flush() returns (r: Result<string>)
      requires Valid()
      modifies this`pos
      ensures Valid()
      ensures old(ReadError()).Some? ==> r == Failure(old(ReadError()).value) && pos == old(pos)
      ensures old(ReadError()).None? ==> r == Success(content[old(pos)..]) && pos == |content|
    {
      var e := ReadError();
      if e.Some? {
        return Failure(e.value);
      }
      r := Success(content[pos..]);
      pos := |content|;
    }

    /** `__toString()`: the rest of the content; a seekable stream keeps its pointer, any other
        stream is drained. */
    method ToString() returns (r: Result<string>)
      requires Valid()
      modifies this`pos
      ensures Valid()
      ensures !open ==> r == Failure(TypeError) && pos == old(pos)
      ensures open && !readable ==> r == Failure(StreamException(NotReadable(mode))) && pos == old(pos)
      ensures open && readable ==> r == Success(content[old(pos)..])
      ensures open && readable && seekable ==> pos == old(pos)
      ensures open && readable && !seekable ==> pos == |content|
    {
      if !open {
        return Failure(TypeError);
      }
      if !seekable {
        r := Flush();
        return;
      }
      var was := pos;
      r := Flush();
      var back := Seek(was, SeekSet);
    }

    /** `close()`: false when already closed; true after releasing the resource. */
    method Close() returns (r: bool)
      modifies this`open
      ensures r == old(open)
      ensures !open
    {
      if !open {
        return false;
      }
      open := false;
      r := true;
    }
  }
}

=== FILE: text.dfy ===
/** Byte-string helpers: PHP truthiness of strings, decimal conversion, implode. */
module Text {

  /** PHP treats the strings "" and "0" as false. */
  predicate Falsy(s: string) {
    |s| == 0 || (|s| == 1 && s[0] == '0')
  }

  predicate IsDigit(c: char) {
    '0' <= c <= '9'
  }

  predicate IsDigits(s: string) {
    forall i :: 0 <= i < |s| ==> IsDigit(s[i])
  }

  /** A decimal numeral as PHP prints a non-negative integer: no sign, no leading zero. */
  predicate IsNumeral(s: string) {
    |s| > 0 && IsDigits(s) && (s[0] == '0' ==> |s| == 1)
  }

  function DigitChar(d: nat): (c: char)
    requires d < 10
    ensures IsDigit(c)
  {
    "0123456789"[d]
  }

  function DigitValue(c: char): (d: nat)
    requires IsDigit(c)
    ensures d < 10
  {
    (c as int - '0' as int) as nat
  }

  lemma DigitRoundTrip(d: nat)
    requires d < 10
    ensures DigitValue(DigitChar(d)) == d
  {
  }

  /** PHP's decimal rendering of a non-negative integer. */
  function NatToString(n: nat): (s: string)
    decreases n
  {
    if n < 10 then [DigitChar(n)] else NatToString(n / 10) + [DigitChar(n % 10)]
  }

  /** The value of a string of decimal digits, the way `(integer)` reads it. */
  function ParseNat(s: string): (n: nat)
    requires IsDigits(s)
  {
    if |s| == 0 then 0 else ParseNat(s[..|s| - 1]) * 10 + DigitValue(s[|s| - 1])
  }

  /** PHP's decimal rendering of an integer: a minus sign for negative values. */
  function IntToString(i: int): (s: string)
  {
    if i < 0 then "-" + NatToString(-i) else NatToString(i)
  }

  lemma {:induction false} NatToStringIsNumeral(n: nat)
    ensures IsNumeral(NatToString(n))
    ensures n >= 10 ==> NatToString(n)[0] != '0'
    decreases n
  {
    if n >= 10 {
      NatToStringIsNumeral(n / 10);
      var s := NatToString(n / 10);
      assert NatToString(n) == s + [DigitChar(n % 10)];
      assert NatToString(n)[0] == s[0];
    }
  }

  /** Printing a number and reading it back gives the number. */
  lemma {:induction false} ParsePrinted(n: nat)
    ensures IsDigits(NatToString(n)) && ParseNat(NatToString(n)) == n
    decreases n
  {
    NatToStringIsNumeral(n);
    if n >= 10 {
      ParsePrinted(n / 10);
      var s := NatToString(n / 10);
      var t := NatToString(n);
      assert t == s + [DigitChar(n % 10)];
      assert t[..|t| - 1] == s;
      DigitRoundTrip(n % 10);
    } else {
      DigitRoundTrip(n);
      assert NatToString(n)[..0] == [];
    }
  }

  /** Reading a numeral and printing it back gives the numeral. */
  lemma {:induction false} PrintParsed(s: string)
    requires IsNumeral(s)
    ensures NatToString(ParseNat(s)) == s
    decreases |s|
  {
    var init := s[..|s| - 1];
    var last := s[|s| - 1];
    if |s| == 1 {
      assert init == [];
      assert DigitChar(DigitValue(last)) == last;
    } else {
      assert IsNumeral(init) by {
        assert init[0] == s[0];
        assert forall i :: 0 <= i < |init| ==> init[i] == s[i];
      }
      PrintParsed(init);
      ParseNumeralLarge(init);
      var n := ParseNat(s);
      assert n / 10 == ParseNat(init) && n % 10 == DigitValue(last);
      assert DigitChar(DigitValue(last)) == last;
      assert s == init + [last];
    }
  }

  /** A numeral of two or more digits has no leading zero, so its value is at least 1. */
  lemma {:induction false} ParseNumeralLarge(s: string)
    requires IsNumeral(s)
    ensures |s| > 1 ==> ParseNat(s) >= 1
    ensures s[0] != '0' ==> ParseNat(s) >= 1
    decreases |s|
  {
    if |s| > 1 {
      var init := s[..|s| - 1];
      assert init[0] == s[0];
      assert IsNumeral(init);
      ParseNumeralLarge(init);
    } else {
      assert s[..0] == [];
    }
  }

  /** The concatenation of a list of strings. */
  function Join(ss: seq<string>): (r: string)
  {
    if |ss| == 0 then "" else Join(ss[..|ss| - 1]) + ss[|ss| - 1]
  }

  /** PHP's `join($sep, $list)`: the items with the separator between consecutive ones. */
  function JoinWith(sep: string, ss: seq<string>): (r: string)
  {
    if |ss| == 0 then ""
    else if |ss| == 1 then ss[0]
    else JoinWith(sep, ss[..|ss| - 1]) + sep + ss[|ss| - 1]
  }

  lemma {:induction false} JoinAppend(a: seq<string>, b: seq<string>)
    ensures Join(a + b) == Join(a) + Join(b)
    decreases |b|
  {
    if |b| == 0 {
      assert a + b == a;
    } else {
      var b' := b[..|b| - 1];
      assert (a + b)[..|a + b| - 1] == a + b';
      JoinAppend(a, b');
    }
  }

  /** Joining a list of two or more items puts the first item and the separator in front of the
      join of the others. */
  lemma {:induction false} JoinWithCons(sep: string, a: string, rest: seq<string>)
    requires |rest| > 0
    ensures JoinWith(sep, [a] + rest) == a + sep + JoinWith(sep, rest)
    decreases |rest|
  {
    var all := [a] + rest;
    if |rest| == 1 {
      assert all[..|all| - 1] == [a];
    } else {
      var init := rest[..|rest| - 1];
      assert all[..|all| - 1] == [a] + init;
      JoinWithCons(sep, a, init);
    }
  }

  lemma JoinWithPair(sep: string, a: string, b: string)
    ensures JoinWith(sep, [a, b]) == a + sep + b
  {
    assert [a, b][..1] == [a];
  }

  lemma JoinWithTriple(sep: string, a: string, b: string, c: string)
    ensures JoinWith(sep, [a, b, c]) == a + sep + b + sep + c
  {
    assert [a, b, c][..2] == [a, b];
    JoinWithPair(sep, a, b);
  }

  lemma JoinOne(s: string)
    ensures Join([s]) == s
  {
    assert [s][..0] == [];
  }
}

=== FILE: wrappers.dfy ===
/** Option and Result values, and the exceptions the stream classes throw. */
module Wrappers {

  datatype Option<+T> = None | Some(value: T) {
    function GetOr(default: T): T {
      match this
      case Some(v) => v
      case None => default
    }
  }

  /** The exceptions of the library, each with the message the PHP code attaches to it. */
  datatype Error =
    | StreamException(msg: string)
    | RuntimeException(msg: string)
    | InvalidArgumentException(msg: string)
    | PhpException(msg: string)
      /** PHP's TypeError when a released resource handle reaches a stream built-in. */
    | TypeError

  datatype Result<+T> = Success(value: T) | Failure(error: Error)
}
